=== FILE: README.md ===
# Latplan training utilities in Dafny

This project models the numerical core of `latplan/util/layers.py`:

- the epoch-indexed schedules that drive layer hyperparameters: `StepSchedule`, `LinearSchedule`, and the annealed temperature of `GumbelSoftmax` and `BinaryConcrete`;
- the four history-window early-stopping callbacks: gradient, change, linear and explosion;
- `sort_binary`, which sorts 0/1 rows by their big-endian value;
- the forward pass of `VQVAELayer`, the nearest-codeword vector quantiser.

Everything is modelled as pure functions over immutable values:

- A callback is a record, and `on_epoch_end` maps one record to the next. The `model.stop_training` attribute becomes the `stopTraining` flag of the record's `Watch`.
- A metric is `Num(x)` over exact reals, or `NaN`.
- Python exceptions become `Failure` values of `Wrappers.Result`:
  - the failed `assert` in the gradient callback's constructor;
  - division by zero;
  - `math.log` of a non-positive number;
  - `np.amax` of an empty window;
  - the missing `ub` attribute;
  - the `assert epoch >= 0` of both schedules' `value`.
- The transcendental functions `math.log` and `np.exp` are parameters of the functions that use them.
- `uint64` arithmetic in `sort_binary` is written out with an explicit modulus.
- A callback's stop flag is never reset, and `stopped_epoch` is rewritten each time the stop condition fires again.
- As a function of the span, `anneal_rate` fails only at 0. With `max > min`, a negative span gives a negative rate.

Modules, one per file:

- `Wrappers`: `Option`, `Result`, the error kinds.
- `Sorting`: a stable insertion sort over a total preorder. It stands in for `sorted`, `np.sort` and the sort inside `np.median`, together with its uniqueness and permutation lemmas.
- `Stats`: metrics, sums, means, maximum, minimum and median.
- `Schedules`: step and linear schedules, `anneal_rate`, temperatures.
- `EarlyStopping`: the window and the four callbacks.
- `BinarySort`: `sort_binary` and its bit and byte encodings.
- `VectorQuantizer`: distances, argmax selection and straight-through output.

## Model

| member | source | states |
|---|---|---|
| Schedules.StepValue | latplan/util/layers.py:752-771 | the result is the value of the largest key not above the epoch; when every key is above the epoch it is the value of the smallest key; it is absent exactly when the schedule is empty |
| Schedules.StepScheduleValue | latplan/util/layers.py:752-771 | `StepSchedule.value` fails its `assert` exactly at a negative epoch and otherwise returns the step value |
| Schedules.StepScanCorrect | latplan/util/layers.py:761-771 | the descending scan of the schedule returns the value at the floor key, or the value at the least key when all keys lie above the epoch |
| Schedules.Descending | latplan/util/layers.py:763 | `sorted(..., reverse=True)` yields the same entries in non-increasing key order |
| Schedules.LinearValue | latplan/util/layers.py:781-798 | at or past the largest key it returns that key's value; before the smallest key it returns the smallest key's value; strictly between neighbouring keys it returns the interpolation `pvalue + (epoch - pkey)(value - pvalue)/(key - pkey)` |
| Schedules.LinearScheduleValue | latplan/util/layers.py:781-798 | `LinearSchedule.value` fails its `assert` exactly at a negative epoch and otherwise returns the linear value |
| Schedules.LinearScanCorrect | latplan/util/layers.py:783-798 | the descending scan with its remembered previous entry realises the three cases of the linear schedule |
| Schedules.LinearAtBreakpoint | latplan/util/layers.py:788-794 | at every breakpoint epoch the linear schedule returns exactly that breakpoint's value |
| Schedules.StepLinearAgreeAtBreakpoints | latplan/util/layers.py:752-798 | at every breakpoint epoch the step and the linear schedule agree, and both equal the configured value |
| Schedules.LinearBetweenNeighbours | latplan/util/layers.py:792-794 | between two neighbouring keys the linear value lies between their two values |
| Schedules.LinearMidpoint | latplan/util/layers.py:792-794 | halfway between two neighbouring keys the linear value is the mean of their values |
| Schedules.InterpolateAtKey | latplan/util/layers.py:794 | the interpolation formula evaluated at the lower key gives that key's value |
| Schedules.StepScheduleScenario | latplan/util/layers.py:752-771 | the step schedule `{0: 1.0, 10: 0.5, 20: 0.1}` gives 1.0, 0.5, 0.5 and 0.1 at epochs 5, 10, 15 and 25 |
| Schedules.LinearScheduleScenario | latplan/util/layers.py:781-798 | the ramp `{0: 0, 10: 1, 20: 1}` gives 0, 0.4, 1 and 1 at epochs 0, 4, 15 and 30 |
| Schedules.AnnealRate | latplan/util/layers.py:322-324 | `log(max/min)/span`: division by zero when `min` is 0 or the span is 0; a domain error when `max/min` is not positive; otherwise the rate times the span is the logarithm |
| Schedules.NewAnnealing | latplan/util/layers.py:536 | the rate is computed over `full_epoch - offset`, and construction fails exactly in the cases `anneal_rate` raises |
| Schedules.Temperature | latplan/util/layers.py:596-598 | the temperature never falls below `min`; up to the offset it is `max(min, max * exp(0))` |
| Schedules.TemperatureNonIncreasing | latplan/util/layers.py:679-681 | with a non-negative rate, a non-negative `max` and a monotone exponential, the temperature at a later epoch is never higher |
| Schedules.TemperatureReachesMin | latplan/util/layers.py:596-598 | from `full_epoch` on, the annealed temperature equals `min` |
| Stats.Max | latplan/util/layers.py:225 | `np.amax` of a non-empty window is one of its entries and bounds every entry from above |
| Stats.Min | latplan/util/layers.py:225 | `np.amin` of a non-empty window is one of its entries and bounds every entry from below |
| Stats.SortReals | latplan/util/layers.py:283 | the sort inside `np.median` is an ordered permutation of the window |
| Stats.Median | latplan/util/layers.py:283 | `np.median` of a non-empty window lies between its minimum and maximum, and is one of its entries when the length is odd |
| Stats.MedianIsMiddle | latplan/util/layers.py:283 | for any sorted permutation of the window, the median is its middle element when the length is odd and the mean of its two middle elements when it is even |
| Stats.MedianPermutationInvariant | latplan/util/layers.py:283 | the median does not depend on the order of the window |
| Stats.MedianOfConstant | latplan/util/layers.py:318 | the median of a constant window is that constant |
| Stats.MedianMetric | latplan/util/layers.py:283 | the median is a number exactly when the window is non-empty and free of NaN |
| EarlyStopping.Push | latplan/util/layers.py:204-206 | the new value is appended at the end; the oldest entry is dropped from the front exactly when the window then exceeds `sample_epochs`; a window within capacity stays within capacity |
| EarlyStopping.OnTrainBegin | latplan/util/layers.py:163-166 | `on_train_begin` resets `stopped_epoch` to 0 and keeps the history and the stop flag |
| EarlyStopping.Observe | latplan/util/layers.py:204-209 | one step appends, trims, and sets the stop flag and `stopped_epoch` only when the stop condition fires on an overflowed window |
| EarlyStopping.NewGradientStopping | latplan/util/layers.py:174-188 | the constructor fails exactly when `sample_epochs < 2`; `smooth` is kept when `sample_epochs > 2*smooth` and becomes `sample_epochs // 2` otherwise |
| EarlyStopping.Gradient | latplan/util/layers.py:190-195 | the gradient is the mean of the last `smooth` entries minus the mean of the first `smooth`, divided by `sample_epochs`; it is NaN exactly when one of those entries is NaN |
| EarlyStopping.SumDifference | latplan/util/layers.py:195 | the sum of elementwise differences is the difference of the sums |
| EarlyStopping.GradientOnEpochEnd | latplan/util/layers.py:197-209 | the window stays within `sample_epochs`; the callback stops exactly on an overflowed window whose gradient is at least `min_grad`, recording that epoch |
| EarlyStopping.Change | latplan/util/layers.py:224-225 | `max - min` of the window: an error on an empty window, otherwise a non-negative number that bounds every pairwise difference and is attained by one |
| EarlyStopping.NewChangeStopping | latplan/util/layers.py:212-222 | `threshold`, `epoch_start` and `sample_epochs` are stored as given and the window starts empty |
| EarlyStopping.ChangeOnEpochEnd | latplan/util/layers.py:227-239 | stops exactly on an overflowed window whose spread is within `threshold` at or after `epoch_start`; fails only when it must measure an empty window |
| EarlyStopping.ChangeRun | latplan/util/layers.py:227-239 | over any run of epochs the window stays bounded, the configuration is unchanged, and a raised stop flag stays raised |
| EarlyStopping.ChangeSteadyMetric | latplan/util/layers.py:234-239 | fed a constant metric from epoch 0, the callback first stops at the epoch that both overflows the window (its `sample_epochs + 1`-th value) and reaches `epoch_start`, never earlier, and rewrites `stopped_epoch` on each later epoch |
| EarlyStopping.NewLinearStopping | latplan/util/layers.py:243-264 | `epoch_end`, `epoch_start`, both `ub_ratio`s and `sample_epochs` are stored as given; `value_end` is the target value or 0.0; `value_start` starts unrecorded (the code's infinity); the window starts empty |
| EarlyStopping.UpperBoundDecreasing | latplan/util/layers.py:274-278 | with `epoch_end > epoch_start`, `ub_ratio_end <= ub_ratio_start` and a recorded start at or above `value_end`, the bound at a later epoch is never higher: the upper bound decreases linearly |
| EarlyStopping.LinearOnEpochEnd | latplan/util/layers.py:266-285 | records `value_start` at `epoch_start`; raises division by zero exactly when `epoch_end == epoch_start`; stops exactly when the median of an overflowed window reaches the bound at or after `epoch_start` |
| EarlyStopping.UpperBoundEndpoints | latplan/util/layers.py:276-278 | at `epoch_start` the bound uses `ub_ratio_start` and at `epoch_end` it uses `ub_ratio_end` |
| EarlyStopping.NewExplosionStopping | latplan/util/layers.py:289-301 | `epoch_end`, `epoch_start` and `sample_epochs` are stored as given, the window starts empty and `ub` is not yet set |
| EarlyStopping.ExplosionOnEpochEnd | latplan/util/layers.py:303-320 | `ub` is set at epoch 0; a NaN metric stops at once and leaves the history alone; otherwise it stops when the median of an overflowed window reaches `ub` at or after `epoch_start`; a missing `ub` is an error exactly when it is needed |
| BinarySort.BitsToNatToBits | latplan/util/layers.py:126-141 | decoding the number of a row at the row's width gives the row back |
| BinarySort.NatToBitsToNat | latplan/util/layers.py:132-141 | encoding a number at width `m` and reading it back gives the number modulo `2^m` |
| BinarySort.DotWeights | latplan/util/layers.py:127-129 | the dot product with the weights `2^(w-1-i)` is the row's big-endian value |
| BinarySort.UnpackLittleBytes | latplan/util/layers.py:132-139 | cutting a number into bytes, reversing them and unpacking each byte gives its big-endian bits |
| BinarySort.DecodeIsNatToBits | latplan/util/layers.py:132-141 | taking the last `w` unpacked bits yields the `w`-bit encoding of the number |
| BinarySort.ByteCount | latplan/util/layers.py:132 | `(w - 1) // 8 + 1` bytes hold at least `w` and fewer than `w + 8` bits |
| BinarySort.SortBinary | latplan/util/layers.py:125-141 | for 0/1 rows of width 1..64 the output is a permutation of the input rows, each of width `w`, in ascending big-endian order |
| BinarySort.SortBinaryUnique | latplan/util/layers.py:125-141 | any permutation of the rows in ascending order is the output |
| BinarySort.SortBinaryIdempotent | latplan/util/layers.py:125-141 | sorting sorted rows changes nothing |
| BinarySort.SortBinaryPermutationInvariant | latplan/util/layers.py:125-141 | the output does not depend on the order of the input rows |
| BinarySort.SortBinaryBatch | latplan/util/layers.py:125-141 | on a batch of arrays, each output array is a permutation of the matching input array in ascending big-endian order |
| BinarySort.SortBinaryAgreesBelow64 | latplan/util/layers.py:127-129 | for widths up to 63 the weights as written equal the intended powers of two, so the code as written sorts correctly |
| BinarySort.WeightsAgreeBelow64 | latplan/util/layers.py:127-128 | `(2 << steps) // 2` in `uint64` equals `2^steps` for every step below 63 |
| BinarySort.TopWeightWraps | latplan/util/layers.py:127-128 | at width 64 the weight of the first bit, `(2 << 63) // 2`, is 0 in `uint64` |
| BinarySort.SortBinaryAsWritten | latplan/util/layers.py:125-141 | the code as written, with the `uint64` weights, keeps the number of rows and their width `w` |
| BinarySort.SortBinaryAsWrittenDropsTopBit | latplan/util/layers.py:125-141 | at width 64 the code as written turns the row `1 0...0` into all zeros, so its output is not a permutation of its input |
| BinarySort.OneHotOrder | latplan/util/layers.py:144-146 | the row with its 1 in second place is smaller than the row with its 1 in first place |
| BinarySort.SortTwo | latplan/util/layers.py:125-141 | two rows with distinct values come out smaller first, in either input order |
| BinarySort.SortBinaryExamples | latplan/util/layers.py:144-146 | at widths 4 and 9, both `[e0, e1]` and `[e1, e0]` sort to `[e1, e0]` |
| BinarySort.OneHotWidth4 | latplan/util/layers.py:144 | at width 4 the two rows of the example are `[1,0,0,0]` and `[0,1,0,0]` |
| VectorQuantizer.ExpandedIsSquaredDistance | latplan/util/layers.py:710-712 | `‖x‖² − 2x·w + ‖w‖²` equals the squared Euclidean distance between `x` and the codeword |
| VectorQuantizer.Distances | latplan/util/layers.py:710-712 | entry `j` of an input's distance row is its squared distance to codeword `j` |
| VectorQuantizer.Argmax | latplan/util/layers.py:715 | the index returned holds the largest value, and every earlier index holds a smaller one |
| VectorQuantizer.FirstMaximumUnique | latplan/util/layers.py:715 | at most one index satisfies the argmax contract, so the selection is determined |
| VectorQuantizer.NegatedArgmaxIsNearest | latplan/util/layers.py:715 | the argmax of the negated distances is a nearest codeword, and the first such one |
| VectorQuantizer.StraightThrough | latplan/util/layers.py:724 | the forward value of `stop_gradient(quantized - x) + x` is `quantized` |
| VectorQuantizer.QuantizeVector | latplan/util/layers.py:705-732 | the encoding index has minimal distance over all `num_classes` codewords, and the output equals that codebook column |
| VectorQuantizer.Call | latplan/util/layers.py:705-732 | for every flattened input row, the index is the first nearest codeword and the output is its column |
| VectorQuantizer.CodewordQuantizedExactly | latplan/util/layers.py:705-732 | an input that is itself a codeword is quantised at distance zero, to that codeword or an earlier one at distance zero |
| VectorQuantizer.SquaredDistanceToSelf | latplan/util/layers.py:710-712 | every vector is at distance zero from itself |

## Left out

- Keras and TensorFlow graph helpers are left out: the `Lambda` layers, the reshapes, `Print`, `Sequential` and the like. They are tensor wiring with no behaviour to state.
- Random sampling is left out: Gumbel and logistic noise, and the softmax and sigmoid activations of the relaxation layers. They involve randomness and floating-point transcendental functions.
- The KL and entropy losses are left out for the same reason.
- Gradients are left out: `stop_gradient`, gradient overrides and the straight-through backward pass. Only forward values are modelled.
- Global layer counters, the `report()` printing in `StepSchedule`, `on_train_end` printing and `K.set_value` are side effects and are left out.
- Schedule keys are integers. The code sorts keys before coercing them with `int(key)`, so string keys restored from JSON would sort lexicographically. That case is not modelled.
- A missing metric (`None`) is left out. The code warns and then appends `None`, and numpy then fails. Every metric here is a number or NaN.
- EarlyStopping.NewGradientStopping: requires `smooth >= 1`. With `smooth == 0` the slices `h[-0:]` and `h[:0]` are the whole and the empty window, which numpy cannot subtract. A negative `smooth = -k` gives the well-defined gradient `h[k:] - h[:-k]`, which is not modelled.
- Schedules.NewAnnealing: the `annealer` constructor argument of `GumbelSoftmax` and `BinaryConcrete` is fixed to its default, `anneal_rate`. Another annealer would give other rates and other failures. `Temperature` accepts any rate.
- EarlyStopping.ExplosionOnEpochEnd: a missing `ub` raises only after the code has appended to and popped the history, so that change stays on the object. The model returns only the error.
- EarlyStopping.NewChangeStopping: `sample_epochs` is a `nat`. A negative value behaves like 0: every call appends and then pops, leaving the window empty.
- EarlyStopping.NewLinearStopping: `sample_epochs` is a `nat`, and a negative value behaves like 0 for the same reason.
- EarlyStopping.NewExplosionStopping: `sample_epochs` is a `nat`, and a negative value behaves like 0 for the same reason.
- Floating-point rounding is not modelled: all arithmetic is exact over the reals. Infinity appears only as the unrecorded `value_start` of the linear callback.
- EarlyStopping.LinearOnEpochEnd: the code assigns `value_start` before it divides by zero, so a failing call leaves that field updated on the object. The model returns only the error.
- BinarySort.SortBinary: requires width 1..64. At width 0, `np.stack` of an empty list raises. Above 64 bits `uint64` wraps further.
- BinarySort.SortBinary: inputs are 0/1 rows. `x.round()` on other values, and arrays of other ranks, are not modelled. The batch axis is `SortBinaryBatch`.
- The source's own example runs on a two-array batch. The model states it per array (`SortBinaryExamples`), which `SortBinaryBatch` lifts to the batch.
- VectorQuantizer.QuantizeVector: requires `num_classes >= 1`. With no codewords, the argmax over an empty row is undefined.
- TensorFlow's `argmax` documents no tie rule. The model breaks ties by the lowest index, which is what a first-maximum scan yields.
- The `e_latent_loss` and `q_latent_loss` of `VQVAELayer` are training losses whose only purpose is their gradient routing, so they are left out.
- The commitment weight `beta` and the initializer are left out with the losses.
- `tests/plot.py`, `tests/hanoi.py` and `action_generator_sdprune.py` are callers and scripts, not part of this model.

## Findings

| source | as written | input that shows it | evidently intended | confidence | as-written member | corrected member |
|---|---|---|---|---|---|---|
| latplan/util/layers.py:127-129 | the weights are `(2 << steps) // 2` in `uint64`, and `2 << 63` wraps to 0, so at width 64 the first bit has weight 0 | one row of width 64: `1` followed by 63 zeros; its key is 0 and it comes back as 64 zeros | weight `2^steps` for every bit, so that the output is a permutation of the input for every width up to 64 | not executed | BinarySort.SortBinaryAsWritten | BinarySort.SortBinary |

=== FILE: binary_sort.dfy ===
/** `sort_binary`: every 0/1 row is read as a big-endian unsigned number,
    the numbers are sorted ascending, and each is turned back into a row of
    the original width through its bytes and `np.unpackbits`. Numbers are
    `nat`; the `uint64` arithmetic of the code is written out with
    `% Modulus64` where it can wrap. */
module BinarySort {
  import Sorting

  type Bit = b: nat | b <= 1

  /** `2^64`, the modulus of `uint64` arithmetic. */
  const Modulus64: nat := 0x1_0000_0000_0000_0000

  function Pow2(k: nat): (p: nat)
    ensures p >= 1
  {
    if k == 0 then 1 else 2 * Pow2(k - 1)
  }

  lemma Pow2Add(a: nat, b: nat)
    ensures Pow2(a + b) == Pow2(a) * Pow2(b)
  {
    if b > 0 {
      Pow2Add(a, b - 1);
    }
  }

  lemma Pow2At64()
    ensures Pow2(64) == Modulus64 && Pow2(63) * 2 == Modulus64
  {
    assert Pow2(8) == 256;
    Pow2Add(8, 8);
    Pow2Add(16, 16);
    Pow2Add(32, 32);
  }

  lemma Pow2Monotone(a: nat, b: nat)
    requires a <= b
    ensures Pow2(a) <= Pow2(b)
  {
    if a < b {
      Pow2Monotone(a, b - 1);
    }
  }

  // ---------------------------------------------------------------------
  // Rows and numbers

  /** A row read as a big-endian number: the first bit is the most significant. */
  function BitsToNat(bs: seq<Bit>): (n: nat)
    ensures n < Pow2(|bs|)
  {
    if |bs| == 0 then 0 else (if bs[0] == 1 then Pow2(|bs| - 1) else 0) + BitsToNat(bs[1..])
  }

  lemma {:induction false} BitsToNatAppend(a: seq<Bit>, b: Bit)
    ensures BitsToNat(a + [b]) == 2 * BitsToNat(a) + b
  {
    if |a| > 0 {
      var ab := a + [b];
      var top := if a[0] == 1 then Pow2(|a| - 1) else 0;
      assert ab[0] == a[0] && ab[1..] == a[1..] + [b];
      assert |ab| - 1 == |a|;
      assert (if ab[0] == 1 then Pow2(|ab| - 1) else 0) == 2 * top;
      BitsToNatAppend(a[1..], b);
      assert BitsToNat(ab[1..]) == 2 * BitsToNat(a[1..]) + b;
    } else {
      assert [] + [b] == [b];
    }
  }

  /** The low `m` bits of `n`, most significant first. */
  function NatToBits(n: nat, m: nat): (bs: seq<Bit>)
    ensures |bs| == m
  {
    if m == 0 then [] else NatToBits(n / 2, m - 1) + [n % 2]
  }

  /** If `n == d * q + r` with `0 <= r < d`, then `q` and `r` are the
      quotient and remainder. */
  lemma DivModUnique(n: nat, d: nat, q: nat, r: nat)
    requires 0 <= r < d && n == d * q + r
    ensures n / d == q && n % d == r
  {
    var q', r' := n / d, n % d;
    assert d * q' + r' == d * q + r;
    if q' < q {
      MulStep(d, q', q);
      assert false;
    } else if q < q' {
      MulStep(d, q, q');
      assert false;
    }
  }

  lemma MulStep(d: nat, a: nat, b: nat)
    requires a < b
    ensures d * a + d <= d * b
  {
    var k: nat := b - a - 1;
    assert b == a + 1 + k;
    assert d * b == d * a + d + d * k;
    assert d * k >= 0;
  }

  /** The remainder modulo `2 * p` split into its halving and its last bit. */
  lemma ModDouble(n: nat, p: nat)
    requires p >= 1
    ensures n % (2 * p) == 2 * ((n / 2) % p) + n % 2
    ensures n / (2 * p) == (n / 2) / p
  {
    var q, b := (n / 2) / p, (n / 2) % p;
    assert n / 2 == p * q + b;
    assert n == 2 * p * q + (2 * b + n % 2);
    DivModUnique(n, 2 * p, q, 2 * b + n % 2);
  }

  /** Reading the bits of `n` back gives `n` modulo `2^m`. */
  lemma {:induction false} NatToBitsToNat(n: nat, m: nat)
    ensures BitsToNat(NatToBits(n, m)) == n % Pow2(m)
  {
    if m > 0 {
      NatToBitsToNat(n / 2, m - 1);
      BitsToNatAppend(NatToBits(n / 2, m - 1), n % 2);
      ModDouble(n, Pow2(m - 1));
    }
  }

  /** Writing a row's number back out in the row's width gives the row. */
  lemma {:induction false} BitsToNatToBits(bs: seq<Bit>)
    ensures NatToBits(BitsToNat(bs), |bs|) == bs
  {
    if |bs| > 0 {
      var a, b := bs[..|bs| - 1], bs[|bs| - 1];
      assert bs == a + [b];
      BitsToNatAppend(a, b);
      DivModUnique(BitsToNat(bs), 2, BitsToNat(a), b);
      BitsToNatToBits(a);
    }
  }

  /** Numbers congruent modulo `2^m` have the same low `m` bits. */
  lemma {:induction false} NatToBitsCongruent(x: nat, y: nat, m: nat)
    requires x % Pow2(m) == y % Pow2(m)
    ensures NatToBits(x, m) == NatToBits(y, m)
  {
    if m > 0 {
      ModDouble(x, Pow2(m - 1));
      ModDouble(y, Pow2(m - 1));
      NatToBitsCongruent(x / 2, y / 2, m - 1);
    }
  }

  /** `n >> b`: `b` halvings. */
  function Shift(n: nat, b: nat): nat {
    if b == 0 then n else Shift(n / 2, b - 1)
  }

  lemma {:induction false} ShiftIsDivision(n: nat, b: nat)
    ensures Shift(n, b) == n / Pow2(b)
  {
    if b > 0 {
      ShiftIsDivision(n / 2, b - 1);
      ModDouble(n, Pow2(b - 1));
    }
  }

  /** The low `m + b` bits are the bits above position `b` followed by the low `b` bits. */
  lemma {:induction false} NatToBitsSplit(n: nat, m: nat, b: nat)
    ensures NatToBits(n, m + b) == NatToBits(Shift(n, b), m) + NatToBits(n, b)
  {
    if b > 0 {
      NatToBitsSplit(n / 2, m, b - 1);
      assert m + b - 1 == m + (b - 1);
      assert NatToBits(n, m + b) == NatToBits(n / 2, m + (b - 1)) + [n % 2];
    }
  }

  /** The last `b` of the low `total` bits are the low `b` bits. */
  lemma LowBitsSuffix(n: nat, m: nat, b: nat, total: nat)
    requires total == m + b
    ensures NatToBits(n, total) == NatToBits(Shift(n, b), m) + NatToBits(n, b)
    ensures NatToBits(n, total)[m..] == NatToBits(n, b)
  {
    NatToBitsSplit(n, m, b);
    assert (NatToBits(Shift(n, b), m) + NatToBits(n, b))[m..] == NatToBits(n, b);
  }

  // ---------------------------------------------------------------------
  // Bytes

  /** The loop `xs.append(x_int % 2**8); x_int = x_int // 2**8`, run
      `count` times: the low bytes of `n`, least significant first. */
  function LittleBytes(n: nat, count: nat): (bytes: seq<nat>)
    ensures |bytes| == count
  {
    if count == 0 then [] else [n % 256] + LittleBytes(n / 256, count - 1)
  }

  function Reverse<T>(s: seq<T>): (r: seq<T>)
    ensures |r| == |s|
  {
    if |s| == 0 then [] else Reverse(s[1..]) + [s[0]]
  }

  /** `np.unpackbits(bytes.astype(np.uint8))` along the last axis: each byte,
      cut to its low 8 bits, as 8 bits most significant first. */
  function UnpackBits(bytes: seq<nat>): (bits: seq<Bit>)
    ensures |bits| == 8 * |bytes|
  {
    if |bytes| == 0 then [] else NatToBits(bytes[0], 8) + UnpackBits(bytes[1..])
  }

  lemma {:induction false} UnpackBitsAppend(bytes: seq<nat>, x: nat)
    ensures UnpackBits(bytes + [x]) == UnpackBits(bytes) + NatToBits(x, 8)
  {
    if |bytes| > 0 {
      assert (bytes + [x])[1..] == bytes[1..] + [x];
      UnpackBitsAppend(bytes[1..], x);
    }
  }

  /** The big-endian bytes of `n`, unpacked, are the low `8 * count` bits of `n`. */
  lemma {:induction false} UnpackLittleBytes(n: nat, count: nat)
    ensures UnpackBits(Reverse(LittleBytes(n, count))) == NatToBits(n, 8 * count)
  {
    if count > 0 {
      var rest := LittleBytes(n / 256, count - 1);
      assert LittleBytes(n, count)[1..] == rest;
      UnpackBitsAppend(Reverse(rest), n % 256);
      UnpackLittleBytes(n / 256, count - 1);
      LowByte(n, count);
    }
  }

  /** The low `8 * count` bits are those of `n / 256` followed by those of the byte `n % 256`. */
  lemma LowByte(n: nat, count: nat)
    requires count >= 1
    ensures NatToBits(n, 8 * count) == NatToBits(n / 256, 8 * (count - 1)) + NatToBits(n % 256, 8)
  {
    assert Pow2(8) == 256;
    NatToBitsCongruent(n % 256, n, 8);
    ShiftIsDivision(n, 8);
    LowBitsSuffix(n, 8 * (count - 1), 8, 8 * count);
  }

  /** The number of bytes the loop produces for a row of width `w`. */
  function ByteCount(w: nat): (nb: nat)
    requires w >= 1
    ensures w <= 8 * nb < w + 8
  {
    (w - 1) / 8 + 1
  }

  /** `np.unpackbits(...)[..., -w:]` of the bytes of `k`. */
  function Decode(k: nat, w: nat): (row: seq<Bit>)
    requires w >= 1
    ensures |row| == w
  {
    var nb := ByteCount(w);
    UnpackBits(Reverse(LittleBytes(k, nb)))[8 * nb - w..]
  }

  /** Decoding through bytes gives the low `w` bits of the number. */
  lemma DecodeIsNatToBits(k: nat, w: nat)
    requires w >= 1
    ensures Decode(k, w) == NatToBits(k, w)
  {
    var nb := ByteCount(w);
    UnpackLittleBytes(k, nb);
    LowBitsSuffix(k, 8 * nb - w, w, 8 * nb);
  }

  // ---------------------------------------------------------------------
  // Weights and keys

  /** `np.dot(row, weights)`; a 0/1 entry selects its weight or not. */
  function Dot(row: seq<Bit>, ws: seq<nat>): nat
    requires |row| == |ws|
  {
    if |row| == 0 then 0 else (if row[0] == 1 then ws[0] else 0) + Dot(row[1..], ws[1..])
  }

  /** The weights `2^(w-1), ..., 2, 1`. */
  function Weights(w: nat): (ws: seq<nat>)
    ensures |ws| == w && forall i :: 0 <= i < w ==> ws[i] == Pow2(w - 1 - i)
  {
    seq(w, i requires 0 <= i < w => Pow2(w - 1 - i))
  }

  /** `(2 << steps) // 2` over `uint64` with `steps = w-1, ..., 0`: the
      shift wraps modulo `2^64` before the halving. */
  function WeightsAsWritten(w: nat): (ws: seq<nat>)
    ensures |ws| == w && forall i :: 0 <= i < w ==> ws[i] == (2 * Pow2(w - 1 - i)) % Modulus64 / 2
  {
    seq(w, i requires 0 <= i < w => (2 * Pow2(w - 1 - i)) % Modulus64 / 2)
  }

  /** With the intended weights the dot product is the row's big-endian number. */
  lemma {:induction false} DotWeights(row: seq<Bit>)
    ensures Dot(row, Weights(|row|)) == BitsToNat(row)
  {
    if |row| > 0 {
      assert Weights(|row|)[1..] == Weights(|row| - 1);
      DotWeights(row[1..]);
    }
  }

  /** Below width 64 the shift never wraps, so the weights are as intended. */
  lemma WeightsAgreeBelow64(w: nat)
    requires w <= 63
    ensures WeightsAsWritten(w) == Weights(w)
  {
    forall i | 0 <= i < w
      ensures WeightsAsWritten(w)[i] == Weights(w)[i]
    {
      WeightBelow64(w - 1 - i);
    }
  }

  lemma WeightBelow64(e: nat)
    requires e <= 62
    ensures (2 * Pow2(e)) % Modulus64 / 2 == Pow2(e)
  {
    Pow2Monotone(e + 1, 63);
    Pow2At64();
    DivModUnique(2 * Pow2(e), Modulus64, 0, 2 * Pow2(e));
    DivModUnique(2 * Pow2(e), 2, Pow2(e), 0);
  }

  /** At width 64 the top weight `(2 << 63) // 2` wraps to zero. */
  lemma TopWeightWraps()
    ensures WeightsAsWritten(64)[0] == 0
  {
    Pow2At64();
  }

  // ---------------------------------------------------------------------
  // sort_binary

  function NatLe(a: nat, b: nat): bool {
    a <= b
  }

  lemma NatLeIsTotalOrder()
    ensures Sorting.TotalOrder(NatLe)
  {
  }

  /** `np.sort` of the keys. */
  function SortNats(keys: seq<nat>): (r: seq<nat>)
    ensures Sorting.SortedBy(r, NatLe)
    ensures multiset(r) == multiset(keys) && |r| == |keys|
  {
    NatLeIsTotalOrder();
    Sorting.Sort(keys, NatLe)
  }

  predicate Rows(rows: seq<seq<Bit>>, w: nat) {
    forall i :: 0 <= i < |rows| ==> |rows[i]| == w
  }

  /** The `uint64` keys `np.dot(x, two_exp)`, modulo `2^64`. */
  function Keys(rows: seq<seq<Bit>>, ws: seq<nat>): (keys: seq<nat>)
    requires Rows(rows, |ws|)
    ensures |keys| == |rows|
  {
    seq(|rows|, i requires 0 <= i < |rows| => Dot(rows[i], ws) % Modulus64)
  }

  /** The body of `sort_binary` for one 2-D array of rows of width `w`,
      given the weight vector it computes. */
  function SortBinaryWith(rows: seq<seq<Bit>>, w: nat, ws: seq<nat>): (out: seq<seq<Bit>>)
    requires 1 <= w && |ws| == w && Rows(rows, w)
    ensures |out| == |rows| && Rows(out, w)
  {
    var sorted := SortNats(Keys(rows, ws));
    seq(|sorted|, i requires 0 <= i < |sorted| => Decode(sorted[i], w))
  }

  /** `sort_binary` as written, with the wrapping weights. */
  function SortBinaryAsWritten(rows: seq<seq<Bit>>, w: nat): (out: seq<seq<Bit>>)
    requires 1 <= w <= 64 && Rows(rows, w)
    ensures |out| == |rows| && Rows(out, w)
  {
    SortBinaryWith(rows, w, WeightsAsWritten(w))
  }

  /** `sort_binary` with the weights `2^(w-1), ..., 1`: a permutation of
      the rows, ascending by their big-endian value. */
  function SortBinary(rows: seq<seq<Bit>>, w: nat): (out: seq<seq<Bit>>)
    requires 1 <= w <= 64 && Rows(rows, w)
    ensures |out| == |rows| && Rows(out, w)
    ensures multiset(out) == multiset(rows)
    ensures forall i, j :: 0 <= i < j < |out| ==> BitsToNat(out[i]) <= BitsToNat(out[j])
  {
    var out := SortBinaryWith(rows, w, Weights(w));
    SortBinaryCorrect(rows, w, out);
    out
  }

  /** The intended key of a row is its big-endian number. */
  lemma KeysAreNumbers(rows: seq<seq<Bit>>, w: nat)
    requires w <= 64 && Rows(rows, w)
    ensures forall i :: 0 <= i < |rows| ==> Keys(rows, Weights(w))[i] == BitsToNat(rows[i])
  {
    Pow2Monotone(w, 64);
    Pow2At64();
    forall i | 0 <= i < |rows|
      ensures Keys(rows, Weights(w))[i] == BitsToNat(rows[i])
    {
      DotWeights(rows[i]);
      DivModUnique(BitsToNat(rows[i]), Modulus64, 0, BitsToNat(rows[i]));
    }
  }

  lemma SortBinaryCorrect(rows: seq<seq<Bit>>, w: nat, out: seq<seq<Bit>>)
    requires 1 <= w <= 64 && Rows(rows, w)
    requires out == SortBinaryWith(rows, w, Weights(w))
    ensures multiset(out) == multiset(rows)
    ensures forall i, j :: 0 <= i < j < |out| ==> BitsToNat(out[i]) <= BitsToNat(out[j])
  {
    var keys := Keys(rows, Weights(w));
    var sorted := SortNats(keys);
    KeysAreNumbers(rows, w);
    DecodedKeys(keys, sorted, w, out);
    RowsFromKeys(rows, keys, w);
    Sorting.MapPermutation((k: nat) => NatToBits(k, w), sorted, keys);
  }

  /** Each key is a row's number, so the rows are the keys written out in width `w`. */
  lemma RowsFromKeys(rows: seq<seq<Bit>>, keys: seq<nat>, w: nat)
    requires Rows(rows, w) && |keys| == |rows|
    requires forall i :: 0 <= i < |rows| ==> keys[i] == BitsToNat(rows[i])
    ensures Sorting.Map((k: nat) => NatToBits(k, w), keys) == rows
  {
    forall i | 0 <= i < |rows|
      ensures NatToBits(keys[i], w) == rows[i]
    {
      BitsToNatToBits(rows[i]);
    }
  }

  /** Decoding the sorted keys gives rows whose numbers are those keys, in order. */
  lemma DecodedKeys(keys: seq<nat>, sorted: seq<nat>, w: nat, out: seq<seq<Bit>>)
    requires 1 <= w && forall i :: 0 <= i < |keys| ==> keys[i] < Pow2(w)
    requires multiset(sorted) == multiset(keys) && Sorting.SortedBy(sorted, NatLe)
    requires |out| == |sorted| && forall i :: 0 <= i < |out| ==> out[i] == Decode(sorted[i], w)
    ensures out == Sorting.Map((k: nat) => NatToBits(k, w), sorted)
    ensures forall i, j :: 0 <= i < j < |out| ==> BitsToNat(out[i]) <= BitsToNat(out[j])
  {
    forall i | 0 <= i < |sorted|
      ensures out[i] == NatToBits(sorted[i], w) && BitsToNat(out[i]) == sorted[i]
    {
      DecodeIsNatToBits(sorted[i], w);
      assert sorted[i] in multiset(keys);
      var j :| 0 <= j < |keys| && keys[j] == sorted[i];
      NatToBitsToNat(sorted[i], w);
      DivModUnique(sorted[i], Pow2(w), 0, sorted[i]);
    }
  }

  /** A permutation of the rows that is ascending by value is the output
      of `SortBinary`: rows of one width with equal values are equal, so
      there is exactly one. */
  lemma SortBinaryUnique(rows: seq<seq<Bit>>, w: nat, out: seq<seq<Bit>>)
    requires 1 <= w <= 64 && Rows(rows, w) && Rows(out, w)
    requires multiset(out) == multiset(rows)
    requires forall i, j :: 0 <= i < j < |out| ==> BitsToNat(out[i]) <= BitsToNat(out[j])
    ensures SortBinary(rows, w) == out
  {
    var keys := Keys(rows, Weights(w));
    KeysAreNumbers(rows, w);
    assert keys == Sorting.Map(BitsToNat, rows);
    var outKeys := Sorting.Map(BitsToNat, out);
    Sorting.MapPermutation(BitsToNat, out, rows);
    NatLeIsTotalOrder();
    Sorting.SortedUnique(outKeys, SortNats(keys), NatLe);
    var result := SortBinary(rows, w);
    forall i | 0 <= i < |out|
      ensures result[i] == out[i]
    {
      DecodeIsNatToBits(outKeys[i], w);
      BitsToNatToBits(out[i]);
    }
  }

  /** Sorting sorted rows changes nothing. */
  lemma SortBinaryIdempotent(rows: seq<seq<Bit>>, w: nat)
    requires 1 <= w <= 64 && Rows(rows, w)
    ensures SortBinary(SortBinary(rows, w), w) == SortBinary(rows, w)
  {
    var out := SortBinary(rows, w);
    SortBinaryUnique(out, w, out);
  }

  /** The output depends only on the multiset of the rows. */
  lemma SortBinaryPermutationInvariant(a: seq<seq<Bit>>, b: seq<seq<Bit>>, w: nat)
    requires 1 <= w <= 64 && Rows(a, w) && Rows(b, w)
    requires multiset(a) == multiset(b)
    ensures SortBinary(a, w) == SortBinary(b, w)
  {
    SortBinaryUnique(a, w, SortBinary(b, w));
  }

  // ---------------------------------------------------------------------
  // The width-64 discrepancy

  lemma SortBinaryAgreesBelow64(rows: seq<seq<Bit>>, w: nat)
    requires 1 <= w <= 63 && Rows(rows, w)
    ensures SortBinaryAsWritten(rows, w) == SortBinary(rows, w)
  {
    WeightsAgreeBelow64(w);
  }

  function Zeros(n: nat): (r: seq<Bit>)
    ensures |r| == n && forall i :: 0 <= i < n ==> r[i] == 0
  {
    seq(n, i => 0)
  }

  lemma {:induction false} DotZeros(n: nat, ws: seq<nat>)
    requires |ws| == n
    ensures Dot(Zeros(n), ws) == 0
  {
    if n > 0 {
      assert Zeros(n)[1..] == Zeros(n - 1);
      DotZeros(n - 1, ws[1..]);
    }
  }

  lemma {:induction false} NatToBitsOfZero(n: nat)
    ensures NatToBits(0, n) == Zeros(n)
  {
    if n > 0 {
      NatToBitsOfZero(n - 1);
      assert Zeros(n) == Zeros(n - 1) + [0];
    }
  }

  /** As written, the row `1 0 ... 0` of width 64 has dot product 0. */
  lemma TopRowKey(top: seq<Bit>)
    requires top == [1 as Bit] + Zeros(63)
    ensures |top| == 64 && Dot(top, WeightsAsWritten(64)) == 0
  {
    assert top[1..] == Zeros(63);
    var ws := WeightsAsWritten(64);
    TopWeightWraps();
    DotZeros(63, ws[1..]);
  }

  /** At width 64 the row `1 0 ... 0` gets key 0 as written, so the output
      is the all-zero row and is no permutation of the input. */
  lemma SortBinaryAsWrittenDropsTopBit(top: seq<Bit>, w: nat)
    requires w == 64 && top == [1 as Bit] + Zeros(w - 1)
    ensures Rows([top], w)
    ensures SortBinaryAsWritten([top], w) == [Zeros(w)]
    ensures multiset(SortBinaryAsWritten([top], w)) != multiset([top])
  {
    TopRowKey(top);
    assert Keys([top], WeightsAsWritten(w)) == [0];
    assert SortNats([0]) == [0];
    DecodeIsNatToBits(0, w);
    NatToBitsOfZero(w);
    assert top[0] != Zeros(w)[0];
    assert top !in multiset([Zeros(w)]);
  }

  // ---------------------------------------------------------------------
  // Batches

  /** `out` holds the rows of `rows`, ascending by their big-endian value. */
  predicate SortedPermutationOf(out: seq<seq<Bit>>, rows: seq<seq<Bit>>)
  {
    && multiset(out) == multiset(rows)
    && forall i, j :: 0 <= i < j < |out| ==> BitsToNat(out[i]) <= BitsToNat(out[j])
  }

  /** `sort_binary` on a 3-D array: `np.sort` orders the keys along the
      last axis, so every batch is sorted on its own. */
  function SortBinaryBatch(batches: seq<seq<seq<Bit>>>, w: nat): (out: seq<seq<seq<Bit>>>)
    requires 1 <= w <= 64 && forall b :: 0 <= b < |batches| ==> Rows(batches[b], w)
    ensures |out| == |batches|
    ensures forall b :: 0 <= b < |out| ==> Rows(out[b], w) && SortedPermutationOf(out[b], batches[b])
  {
    seq(|batches|, b requires 0 <= b < |batches| => SortBinary(batches[b], w))
  }

  /** A 1 at position `k` of an otherwise zero row of width `w`. */
  function OneHot(k: nat, w: nat): (r: seq<Bit>)
    requires k < w
    ensures |r| == w
  {
    Zeros(k) + [1] + Zeros(w - k - 1)
  }

  lemma {:induction false} BitsToNatZeros(n: nat)
    ensures BitsToNat(Zeros(n)) == 0
  {
    if n > 0 {
      assert Zeros(n)[1..] == Zeros(n - 1);
      BitsToNatZeros(n - 1);
    }
  }

  lemma {:induction false} BitsToNatOneHot(k: nat, w: nat)
    requires k < w
    ensures BitsToNat(OneHot(k, w)) == Pow2(w - 1 - k)
  {
    if k == 0 {
      assert OneHot(0, w)[1..] == Zeros(w - 1);
      BitsToNatZeros(w - 1);
    } else {
      assert OneHot(k, w)[1..] == OneHot(k - 1, w - 1);
      BitsToNatOneHot(k - 1, w - 1);
    }
  }

  lemma OneHotOrder(w: nat)
    requires 2 <= w
    ensures BitsToNat(OneHot(1, w)) < BitsToNat(OneHot(0, w))
  {
    BitsToNatOneHot(0, w);
    BitsToNatOneHot(1, w);
    assert Pow2(w - 1) == 2 * Pow2(w - 2);
  }

  /** Any arrangement of the two one-hot rows `e0` and `e1` of width `w`
      comes out as `[e1, e0]`: `e1` has the smaller value. */
  lemma SortTwoOneHot(rows: seq<seq<Bit>>, w: nat)
    requires 2 <= w <= 64
    requires multiset(rows) == multiset{OneHot(0, w), OneHot(1, w)}
    ensures Rows(rows, w) && SortBinary(rows, w) == [OneHot(1, w), OneHot(0, w)]
  {
    OneHotOrder(w);
    SortTwo(rows, OneHot(1, w), OneHot(0, w), w);
  }

  /** Two rows come out smaller value first, whatever their input order. */
  lemma SortTwo(rows: seq<seq<Bit>>, a: seq<Bit>, b: seq<Bit>, w: nat)
    requires 1 <= w <= 64 && |a| == w && |b| == w
    requires BitsToNat(a) < BitsToNat(b)
    requires multiset(rows) == multiset{a, b}
    ensures Rows(rows, w) && SortBinary(rows, w) == [a, b]
  {
    forall i | 0 <= i < |rows|
      ensures |rows[i]| == w
    {
      assert rows[i] in multiset(rows);
    }
    assert multiset([a, b]) == multiset{a, b};
    SortBinaryUnique(rows, w, [a, b]);
  }

  /** The one-hot rows of width 4 written out. */
  lemma OneHotWidth4()
    ensures OneHot(0, 4) == [1, 0, 0, 0] && OneHot(1, 4) == [0, 1, 0, 0]
  {
    assert Zeros(1) == [0] && Zeros(2) == [0, 0] && Zeros(3) == [0, 0, 0];
  }

  /** The two commented examples under `sort_binary`, at widths 4 and 9:
      each is a batch of two arrays holding `e0` and `e1` in both orders,
      and both arrays come out as `[e1, e0]`, i.e. `[[0,1,0,...],[1,0,0,...]]`. */
  lemma SortBinaryExamples(w: nat)
    requires w == 4 || w == 9
    ensures SortBinary([OneHot(0, w), OneHot(1, w)], w) == [OneHot(1, w), OneHot(0, w)]
    ensures SortBinary([OneHot(1, w), OneHot(0, w)], w) == [OneHot(1, w), OneHot(0, w)]
  {
    var e0, e1 := OneHot(0, w), OneHot(1, w);
    assert multiset([e1, e0]) == multiset([e0, e1]) == multiset{e0, e1};
    SortTwoOneHot([e0, e1], w);
    SortTwoOneHot([e1, e0], w);
  }
}

=== FILE: early_stopping.dfy ===
/** The history-window early-stopping callbacks. Each callback is an
    immutable record; `on_epoch_end` is a transition from one record to the
    next. The flag `stopTraining` stands for the `model.stop_training`
    attribute the callback sets. */
module EarlyStopping {
  import opened Wrappers
  import opened Stats

  // ---------------------------------------------------------------------
  // The shared history window

  /** The window after one `append` and, when it overflowed, one `pop(0)`. */
  datatype Pushed = Pushed(window: seq<Metric>, overflowed: bool)

  /** Appends `x` at the end and drops the oldest entry from the front when
      the window then holds more than `capacity` entries. */
  function Push(w: seq<Metric>, x: Metric, capacity: int): (p: Pushed)
    ensures p.overflowed <==> |w| + 1 > capacity
    ensures |p.window| == if p.overflowed then |w| else |w| + 1
    ensures p.window == (w + [x])[|w| + 1 - |p.window|..]
    ensures 0 <= capacity && |w| <= capacity ==> |p.window| <= capacity
    ensures |p.window| > 0 ==> p.window[|p.window| - 1] == x
  {
    var appended := w + [x];
    if |appended| > capacity then
      assert |w| > 0 ==> appended[1..][|w| - 1] == x;
      Pushed(appended[1..], true)
    else
      assert appended[|w| + 1 - |appended|..] == appended;
      Pushed(appended, false)
  }

  /** The part of a callback's state every callback shares. */
  datatype Watch = Watch(history: seq<Metric>, stopTraining: bool, stoppedEpoch: int)

  /** The state right after construction: empty history, `stopped_epoch = 0`. */
  function NewWatch(): Watch {
    Watch([], false, 0)
  }

  /** `on_train_begin`: resets `stopped_epoch` (and the unused `wait`)
      so an instance can be reused; the history is kept. */
  function OnTrainBegin(w: Watch): (r: Watch)
    ensures r.history == w.history && r.stopTraining == w.stopTraining
    ensures r.stoppedEpoch == 0
  {
    w.(stoppedEpoch := 0)
  }

  /** `w'` follows `w` on an epoch whose metric `x` entered the window:
      the window was pushed, the stop flag was set iff it already was or the
      predicate `fired`, and `stopped_epoch` records `epoch` iff it fired. */
  predicate Stepped(w: Watch, w': Watch, x: Metric, capacity: int, epoch: int, fired: bool) {
    && w'.history == Push(w.history, x, capacity).window
    && w'.stopTraining == (w.stopTraining || fired)
    && w'.stoppedEpoch == (if fired then epoch else w.stoppedEpoch)
  }

  /** Push `x` and set the stop flag when `fires` holds of the new window. */
  function Observe(w: Watch, x: Metric, capacity: int, epoch: int, fired: bool): (r: Watch)
    requires fired ==> Push(w.history, x, capacity).overflowed
    ensures Stepped(w, r, x, capacity, epoch, fired)
  {
    var h := Push(w.history, x, capacity).window;
    if fired then Watch(h, true, epoch) else w.(history := h)
  }

  // ---------------------------------------------------------------------
  // GradientEarlyStopping

  datatype GradientStopping = GradientStopping(minGrad: real, sampleEpochs: int, smooth: int, watch: Watch)

  ghost predicate GradientValid(g: GradientStopping) {
    && 1 <= g.smooth
    && 2 * g.smooth <= g.sampleEpochs
    && |g.watch.history| <= g.sampleEpochs
  }

  /** The constructor: `sample_epochs >= 2` is asserted, and `smooth` is
      cut to `sample_epochs // 2` unless `sample_epochs > 2 * smooth`. */
  function NewGradientStopping(minGrad: real, sampleEpochs: int, smooth: int): (r: Result<GradientStopping>)
    requires smooth >= 1
    ensures r.Failure? <==> sampleEpochs < 2
    ensures r.Failure? ==> r.error == AssertionFailed
    ensures r.Success? ==> GradientValid(r.value) && r.value.watch == NewWatch()
    ensures r.Success? ==> r.value.minGrad == minGrad && r.value.sampleEpochs == sampleEpochs
    ensures r.Success? && sampleEpochs > 2 * smooth ==> r.value.smooth == smooth
    ensures r.Success? && sampleEpochs <= 2 * smooth ==> r.value.smooth == sampleEpochs / 2
  {
    if sampleEpochs < 2 then Failure(AssertionFailed)
    else
      var s := if sampleEpochs > smooth * 2 then smooth else sampleEpochs / 2;
      Success(GradientStopping(minGrad, sampleEpochs, s, NewWatch()))
  }

  /** Elementwise `a - b` of two arrays of one shape. */
  function Difference(a: seq<real>, b: seq<real>): (d: seq<real>)
    requires |a| == |b|
    ensures |d| == |a|
  {
    seq(|a|, i requires 0 <= i < |a| => a[i] - b[i])
  }

  lemma {:induction false} SumDifference(a: seq<real>, b: seq<real>)
    requires |a| == |b|
    ensures Sum(Difference(a, b)) == Sum(a) - Sum(b)
  {
    if |a| > 0 {
      assert Difference(a, b)[1..] == Difference(a[1..], b[1..]);
      SumDifference(a[1..], b[1..]);
    }
  }

  lemma QuotientOfDifference(x: real, y: real, n: real, m: real)
    requires n > 0.0 && m > 0.0
    ensures (x - y) / n / m == (x / n - y / n) / m
  {
    assert (x - y) / n == x / n - y / n;
  }

  /** `gradient()`: the mean of the last `smooth` entries minus the mean of
      the first `smooth` entries, over `sample_epochs`; NaN when any of
      those entries is NaN. */
  function Gradient(h: seq<Metric>, smooth: int, sampleEpochs: int): (g: Metric)
    requires 1 <= smooth <= |h|
    requires sampleEpochs >= 1
    ensures g.Num? <==> AllNumbers(h[..smooth]) && AllNumbers(h[|h| - smooth..])
    ensures g.Num? ==>
              g.x == (Mean(Values(h[|h| - smooth..])) - Mean(Values(h[..smooth]))) / sampleEpochs as real
  {
    var last, first := h[|h| - smooth..], h[..smooth];
    if AllNumbers(last) && AllNumbers(first) then
      var a, b := Values(last), Values(first);
      SumDifference(a, b);
      QuotientOfDifference(Sum(a), Sum(b), smooth as real, sampleEpochs as real);
      Num(Mean(Difference(a, b)) / sampleEpochs as real)
    else NaN
  }

  /** The stop predicate of `GradientEarlyStopping`, stated on the full window. */
  predicate GradientFires(h: seq<Metric>, smooth: int, sampleEpochs: int, minGrad: real)
    requires 1 <= smooth <= |h| && sampleEpochs >= 1
  {
    && AllNumbers(h[..smooth])
    && AllNumbers(h[|h| - smooth..])
    && (Mean(Values(h[|h| - smooth..])) - Mean(Values(h[..smooth]))) / sampleEpochs as real >= minGrad
  }

  /** `GradientEarlyStopping.on_epoch_end`. */
  function GradientOnEpochEnd(g: GradientStopping, epoch: int, current: Metric): (r: GradientStopping)
    requires GradientValid(g)
    ensures GradientValid(r)
    ensures r.minGrad == g.minGrad && r.sampleEpochs == g.sampleEpochs && r.smooth == g.smooth
    ensures var p := Push(g.watch.history, current, g.sampleEpochs);
            Stepped(g.watch, r.watch, current, g.sampleEpochs, epoch,
                    p.overflowed && GradientFires(p.window, g.smooth, g.sampleEpochs, g.minGrad))
  {
    var p := Push(g.watch.history, current, g.sampleEpochs);
    var fired := p.overflowed && AtLeast(Gradient(p.window, g.smooth, g.sampleEpochs), g.minGrad);
    g.(watch := Observe(g.watch, current, g.sampleEpochs, epoch, fired))
  }

  // ---------------------------------------------------------------------
  // ChangeEarlyStopping

  datatype ChangeStopping = ChangeStopping(threshold: real, epochStart: int, sampleEpochs: nat, watch: Watch)

  function NewChangeStopping(threshold: real, epochStart: int, sampleEpochs: nat): (c: ChangeStopping)
    ensures c.threshold == threshold && c.epochStart == epochStart && c.sampleEpochs == sampleEpochs
    ensures c.watch == NewWatch()
  {
    ChangeStopping(threshold, epochStart, sampleEpochs, NewWatch())
  }

  /** `change()`: `np.amax - np.amin` of the window; NaN when it holds a
      NaN; an error on an empty window. */
  function Change(h: seq<Metric>): (r: Result<Metric>)
    ensures r.Failure? <==> |h| == 0
    ensures r.Success? && r.value.Num? ==> AllNumbers(h) && r.value.x >= 0.0
    ensures r.Success? && r.value.Num? ==>
              forall i, j :: 0 <= i < |h| && 0 <= j < |h| ==> h[i].x - h[j].x <= r.value.x
    ensures r.Success? && r.value.Num? ==>
              exists i, j :: 0 <= i < |h| && 0 <= j < |h| && h[i].x - h[j].x == r.value.x
    ensures r.Success? && AllNumbers(h) ==> r.value.Num?
  {
    if |h| == 0 then Failure(EmptyReduction)
    else if !AllNumbers(h) then Success(NaN)
    else
      var xs := Values(h);
      SpreadAttained(xs);
      Success(Num(Max(xs) - Min(xs)))
  }

  lemma SpreadAttained(xs: seq<real>)
    requires |xs| > 0
    ensures exists i, j :: 0 <= i < |xs| && 0 <= j < |xs| && xs[i] - xs[j] == Max(xs) - Min(xs)
  {
    var i :| 0 <= i < |xs| && xs[i] == Max(xs);
    var j :| 0 <= j < |xs| && xs[j] == Min(xs);
    assert xs[i] - xs[j] == Max(xs) - Min(xs);
  }

  /** All entries of a NaN-free window lie within `threshold` of each other. */
  predicate WithinThreshold(h: seq<Metric>, threshold: real) {
    && AllNumbers(h)
    && forall i, j :: 0 <= i < |h| && 0 <= j < |h| ==> h[i].x - h[j].x <= threshold
  }

  /** What one `on_epoch_end` of `ChangeEarlyStopping` does: it fails
      exactly when the window it must measure is empty; otherwise the
      configuration is kept, the window stays within `sample_epochs`, and
      the stop flag is raised iff the full window spans at most
      `threshold` and `epoch_start` has been reached. */
  predicate ChangeStepped(c: ChangeStopping, epoch: int, current: Metric, r: Result<ChangeStopping>) {
    var p := Push(c.watch.history, current, c.sampleEpochs);
    && (r.Failure? <==> p.overflowed && |p.window| == 0)
    && (r.Success? ==> |r.value.watch.history| <= r.value.sampleEpochs)
    && (r.Success? ==> r.value.threshold == c.threshold && r.value.epochStart == c.epochStart
                       && r.value.sampleEpochs == c.sampleEpochs)
    && (r.Success? ==>
          Stepped(c.watch, r.value.watch, current, c.sampleEpochs, epoch,
                  p.overflowed && WithinThreshold(p.window, c.threshold) && c.epochStart <= epoch))
  }

  /** `ChangeEarlyStopping.on_epoch_end`: an error when the window it must
      measure is empty (`sample_epochs == 0`). */
  function ChangeOnEpochEnd(c: ChangeStopping, epoch: int, current: Metric): (r: Result<ChangeStopping>)
    requires |c.watch.history| <= c.sampleEpochs
    ensures ChangeStepped(c, epoch, current, r)
  {
    var p := Push(c.watch.history, current, c.sampleEpochs);
    if !p.overflowed then
      Success(c.(watch := Observe(c.watch, current, c.sampleEpochs, epoch, false)))
    else
      var change :- Change(p.window);
      var fired := AtMost(change, c.threshold) && c.epochStart <= epoch;
      Success(c.(watch := Observe(c.watch, current, c.sampleEpochs, epoch, fired)))
  }

  /** `c'` is a later state of `c`: same configuration, a window within
      `sample_epochs`, and a stop flag that, once raised, stays raised. */
  predicate Kept(c: ChangeStopping, c': ChangeStopping) {
    && |c'.watch.history| <= c'.sampleEpochs
    && c'.sampleEpochs == c.sampleEpochs && c'.threshold == c.threshold && c'.epochStart == c.epochStart
    && (c.watch.stopTraining ==> c'.watch.stopTraining)
  }

  /** The metrics `ms` fed to `on_epoch_end` at epochs `epoch`,
      `epoch + 1`, ... in order, stopping at the first error. */
  function ChangeRun(c: ChangeStopping, ms: seq<Metric>, epoch: int): (r: Result<ChangeStopping>)
    requires |c.watch.history| <= c.sampleEpochs
    ensures r.Success? ==> Kept(c, r.value)
    decreases |ms|
  {
    if |ms| == 0 then Success(c)
    else
      var next :- ChangeOnEpochEnd(c, epoch, ms[0]);
      ChangeRun(next, ms[1..], epoch + 1)
  }

  /** `n` epochs of the same metric value `v`. */
  function Steady(v: real, n: nat): (ms: seq<Metric>)
    ensures |ms| == n && forall i :: 0 <= i < n ==> ms[i] == Num(v)
  {
    if n == 0 then [] else [Num(v)] + Steady(v, n - 1)
  }

  /** The state of `ChangeEarlyStopping` after `n` epochs of one steady
      metric: the window holds the last `min(n, sample_epochs)` copies, and
      the stop flag is up once epoch `n - 1` both overflowed the window
      (its value was number `sample_epochs + 1` or later, so the oldest one
      was popped) and reached `epoch_start`, with `stopped_epoch` the latest
      such epoch. */
  function SteadyWatch(v: real, sampleEpochs: nat, epochStart: int, n: nat): Watch {
    var stopped := n > sampleEpochs && n - 1 >= epochStart;
    Watch(Steady(v, if n <= sampleEpochs then n else sampleEpochs), stopped, if stopped then n - 1 else 0)
  }

  /** Fed the same value every epoch from epoch 0, `ChangeEarlyStopping`
      raises the stop flag at the first epoch that both overflows the
      window and has reached `epoch_start`, never earlier (a run of exactly
      `sample_epochs` values never stops), and rewrites
      `stopped_epoch` on every later epoch. */
  lemma ChangeSteadyMetric(threshold: real, epochStart: int, sampleEpochs: nat, v: real, n: nat)
    requires threshold >= 0.0 && sampleEpochs >= 1
    ensures var r := ChangeRun(NewChangeStopping(threshold, epochStart, sampleEpochs), Steady(v, n), 0);
            && r.Success?
            && r.value.watch == SteadyWatch(v, sampleEpochs, epochStart, n)
  {
    var c0 := NewChangeStopping(threshold, epochStart, sampleEpochs);
    assert c0.watch == SteadyWatch(v, sampleEpochs, epochStart, 0);
    ChangeSteadyFrom(c0, v, 0, n, n);
  }

  /** From the steady state after `k` epochs, the remaining `n - k` epochs
      of the same metric reach the steady state after `n`. */
  lemma {:induction false} ChangeSteadyFrom(c: ChangeStopping, v: real, k: nat, n: nat, rest: nat)
    requires c.threshold >= 0.0 && 1 <= c.sampleEpochs && k <= n && rest == n - k
    requires c.watch == SteadyWatch(v, c.sampleEpochs, c.epochStart, k)
    ensures ChangeRun(c, Steady(v, rest), k) == Success(c.(watch := SteadyWatch(v, c.sampleEpochs, c.epochStart, n)))
    decreases rest
  {
    if k == n {
      assert Steady(v, 0) == [];
    } else {
      var next := c.(watch := SteadyWatch(v, c.sampleEpochs, c.epochStart, k + 1));
      ChangeSteadyStep(c, v, k);
      SteadyTail(v, k, n);
      ChangeRunFirst(c, Steady(v, n - k), k, next);
      ChangeSteadyFrom(next, v, k + 1, n, n - (k + 1));
    }
  }

  /** A run starts with the first epoch's `on_epoch_end`. */
  lemma ChangeRunFirst(c: ChangeStopping, ms: seq<Metric>, epoch: int, next: ChangeStopping)
    requires |c.watch.history| <= c.sampleEpochs && |ms| > 0
    requires ChangeOnEpochEnd(c, epoch, ms[0]) == Success(next)
    ensures ChangeRun(c, ms, epoch) == ChangeRun(next, ms[1..], epoch + 1)
  {
  }

  lemma SteadyTail(v: real, k: nat, n: nat)
    requires k < n
    ensures Steady(v, n - k)[0] == Num(v) && Steady(v, n - k)[1..] == Steady(v, n - (k + 1))
  {
  }

  /** One more epoch of the steady metric moves `SteadyWatch` from `k` to `k + 1`. */
  lemma ChangeSteadyStep(c: ChangeStopping, v: real, k: nat)
    requires c.threshold >= 0.0 && 1 <= c.sampleEpochs
    requires c.watch == SteadyWatch(v, c.sampleEpochs, c.epochStart, k)
    ensures ChangeOnEpochEnd(c, k, Num(v)) == Success(c.(watch := SteadyWatch(v, c.sampleEpochs, c.epochStart, k + 1)))
  {
    var j := if k <= c.sampleEpochs then k else c.sampleEpochs;
    ChangeStepSteady(c, v, j, k);
  }

  /** One epoch of a steady metric on a window already holding `j` copies of it. */
  lemma ChangeStepSteady(c: ChangeStopping, v: real, j: nat, epoch: int)
    requires c.threshold >= 0.0 && 1 <= c.sampleEpochs && j <= c.sampleEpochs
    requires c.watch.history == Steady(v, j)
    ensures var r := ChangeOnEpochEnd(c, epoch, Num(v));
            var fired := j == c.sampleEpochs && c.epochStart <= epoch;
            && r.Success?
            && r.value.watch.history == Steady(v, if j + 1 <= c.sampleEpochs then j + 1 else c.sampleEpochs)
            && r.value.watch.stopTraining == (c.watch.stopTraining || fired)
            && r.value.watch.stoppedEpoch == (if fired then epoch else c.watch.stoppedEpoch)
  {
    PushSteady(v, j, c.sampleEpochs);
    var k := if j + 1 <= c.sampleEpochs then j + 1 else c.sampleEpochs;
    SteadyWithinThreshold(v, k, c.threshold);
  }

  lemma PushSteady(v: real, j: nat, capacity: nat)
    requires 1 <= capacity && j <= capacity
    ensures var p := Push(Steady(v, j), Num(v), capacity);
            && (p.overflowed <==> j == capacity)
            && p.window == Steady(v, if j + 1 <= capacity then j + 1 else capacity)
  {
  }

  lemma SteadyWithinThreshold(v: real, k: nat, threshold: real)
    requires threshold >= 0.0
    ensures WithinThreshold(Steady(v, k), threshold)
  {
  }

  // ---------------------------------------------------------------------
  // LinearEarlyStopping

  /** `value_start`: `float("inf")` until the metric of `epoch_start` is seen. */
  datatype Start = Unrecorded | Recorded(m: Metric)

  /** A float upper bound, which can be infinite or NaN when it is computed
      from the initial infinite `value_start`. */
  datatype Bound = Finite(u: real) | PlusInf | MinusInf | Undefined

  datatype LinearStopping = LinearStopping(
    epochEnd: int, epochStart: int,
    ubRatioStart: real, ubRatioEnd: real,
    valueEnd: real,
    sampleEpochs: nat,
    valueStart: Start,
    watch: Watch)

  /** The constructor: `value_end` is `target_value`, or 0.0 without one. */
  function NewLinearStopping(epochEnd: int, epochStart: int, ubRatioStart: real, ubRatioEnd: real,
                             targetValue: Option<real>, sampleEpochs: nat): (l: LinearStopping)
    ensures l.epochEnd == epochEnd && l.epochStart == epochStart
    ensures l.ubRatioStart == ubRatioStart && l.ubRatioEnd == ubRatioEnd && l.sampleEpochs == sampleEpochs
    ensures l.valueEnd == (if targetValue.Some? then targetValue.value else 0.0)
    ensures l.valueStart == Unrecorded && l.watch == NewWatch()
  {
    var valueEnd := if targetValue.Some? then targetValue.value else 0.0;
    LinearStopping(epochEnd, epochStart, ubRatioStart, ubRatioEnd, valueEnd, sampleEpochs, Unrecorded, NewWatch())
  }

  /** The upper-bound ratio, moving linearly from `ub_ratio_start` at
      `epoch_start` to `ub_ratio_end` at `epoch_end`. */
  function UbRatio(l: LinearStopping, epoch: int): real
    requires l.epochEnd != l.epochStart
  {
    var progress := (epoch - l.epochStart) as real / (l.epochEnd - l.epochStart) as real;
    l.ubRatioStart + (l.ubRatioEnd - l.ubRatioStart) * progress
  }

  /** `(value_start - value_end) * ub_ratio + value_end` in float arithmetic. */
  function UpperBound(start: Start, valueEnd: real, ratio: real): (b: Bound)
    ensures b.Finite? <==> start.Recorded? && start.m.Num?
    ensures start.Recorded? && start.m.Num? ==> b == Finite((start.m.x - valueEnd) * ratio + valueEnd)
    ensures b.Undefined? <==> (start.Recorded? && start.m.NaN?) || (start.Unrecorded? && ratio == 0.0)
    ensures b.PlusInf? <==> start.Unrecorded? && ratio > 0.0
    ensures b.MinusInf? <==> start.Unrecorded? && ratio < 0.0
  {
    if start.Recorded? then
      if start.m.Num? then Finite((start.m.x - valueEnd) * ratio + valueEnd) else Undefined
    else if ratio > 0.0 then PlusInf
    else if ratio < 0.0 then MinusInf
    else Undefined
  }

  /** The float comparison `m >= b`. */
  predicate MeetsBound(m: Metric, b: Bound) {
    m.Num? && (b.MinusInf? || (b.Finite? && m.x >= b.u))
  }

  /** The stop condition of `LinearEarlyStopping`: a full window whose
      median reaches the bound, at or after `epoch_start`. */
  predicate LinearFires(p: Pushed, ub: Bound, epochStart: int, epoch: int) {
    p.overflowed && MeetsBound(MedianMetric(p.window), ub) && epochStart <= epoch
  }

  /** `LinearEarlyStopping.on_epoch_end`: records `value_start` at
      `epoch_start`, and stops once the median of a full window reaches the
      bound at or after `epoch_start`. The ratio divides by
      `epoch_end - epoch_start`, so equal epochs raise on every call. */
  function LinearOnEpochEnd(l: LinearStopping, epoch: int, current: Metric): (r: Result<LinearStopping>)
    requires |l.watch.history| <= l.sampleEpochs
    ensures r.Failure? <==> l.epochEnd == l.epochStart
    ensures r.Failure? ==> r.error == ZeroDivision
    ensures r.Success? ==> |r.value.watch.history| <= r.value.sampleEpochs
    ensures r.Success? ==> r.value.valueStart == (if epoch == l.epochStart then Recorded(current) else l.valueStart)
    ensures r.Success? ==> && r.value.epochEnd == l.epochEnd && r.value.epochStart == l.epochStart
                           && r.value.ubRatioStart == l.ubRatioStart && r.value.ubRatioEnd == l.ubRatioEnd
                           && r.value.valueEnd == l.valueEnd && r.value.sampleEpochs == l.sampleEpochs
    ensures r.Success? ==>
              Stepped(l.watch, r.value.watch, current, l.sampleEpochs, epoch,
                      LinearFires(Push(l.watch.history, current, l.sampleEpochs),
                                  UpperBound(r.value.valueStart, l.valueEnd, UbRatio(l, epoch)),
                                  l.epochStart, epoch))
  {
    if l.epochEnd == l.epochStart then Failure(ZeroDivision)
    else
      var start := if epoch == l.epochStart then Recorded(current) else l.valueStart;
      var p := Push(l.watch.history, current, l.sampleEpochs);
      var fired := LinearFires(p, UpperBound(start, l.valueEnd, UbRatio(l, epoch)), l.epochStart, epoch);
      Success(l.(valueStart := start, watch := Observe(l.watch, current, l.sampleEpochs, epoch, fired)))
  }

  /** With a recorded numeric start value the bound starts at
      `(start - end) * ub_ratio_start + end` and reaches
      `(start - end) * ub_ratio_end + end` at `epoch_end`. */
  lemma UpperBoundEndpoints(l: LinearStopping, s: real)
    requires l.epochEnd != l.epochStart
    ensures UpperBound(Recorded(Num(s)), l.valueEnd, UbRatio(l, l.epochStart))
            == Finite((s - l.valueEnd) * l.ubRatioStart + l.valueEnd)
    ensures UpperBound(Recorded(Num(s)), l.valueEnd, UbRatio(l, l.epochEnd))
            == Finite((s - l.valueEnd) * l.ubRatioEnd + l.valueEnd)
  {
    var span := (l.epochEnd - l.epochStart) as real;
    assert span / span == 1.0;
    assert UbRatio(l, l.epochEnd) == l.ubRatioEnd;
  }

  /** The "linearly decreasing upper bound" of `LinearEarlyStopping`: with
      a recorded start value at or above `value_end`, a ratio that moves down
      from `ub_ratio_start` to `ub_ratio_end`, and `epoch_end` after
      `epoch_start`, a later epoch never has a higher bound. */
  lemma UpperBoundDecreasing(l: LinearStopping, s: real, e1: int, e2: int)
    requires l.epochEnd > l.epochStart
    requires s >= l.valueEnd && l.ubRatioEnd <= l.ubRatioStart
    requires e1 <= e2
    ensures UpperBound(Recorded(Num(s)), l.valueEnd, UbRatio(l, e2)).u
            <= UpperBound(Recorded(Num(s)), l.valueEnd, UbRatio(l, e1)).u
  {
    RatioNonIncreasing(l, e1, e2);
    ScaleMonotone(s - l.valueEnd, UbRatio(l, e2), UbRatio(l, e1));
  }

  /** With `ub_ratio_end <= ub_ratio_start` the ratio never grows with the epoch. */
  lemma RatioNonIncreasing(l: LinearStopping, e1: int, e2: int)
    requires l.epochEnd > l.epochStart && l.ubRatioEnd <= l.ubRatioStart
    requires e1 <= e2
    ensures UbRatio(l, e2) <= UbRatio(l, e1)
  {
    var span := (l.epochEnd - l.epochStart) as real;
    var p1 := (e1 - l.epochStart) as real / span;
    var p2 := (e2 - l.epochStart) as real / span;
    QuotientMonotone((e1 - l.epochStart) as real, (e2 - l.epochStart) as real, span);
    ScaleMonotone(l.ubRatioStart - l.ubRatioEnd, p1, p2);
    assert (l.ubRatioEnd - l.ubRatioStart) * p2 <= (l.ubRatioEnd - l.ubRatioStart) * p1;
  }

  lemma QuotientMonotone(a: real, b: real, d: real)
    requires a <= b && d > 0.0
    ensures a / d <= b / d
  {
    assert b / d - a / d == (b - a) / d;
  }

  lemma ScaleMonotone(k: real, a: real, b: real)
    requires k >= 0.0 && a <= b
    ensures k * a <= k * b
  {
    assert k * b - k * a == k * (b - a);
  }

  // ---------------------------------------------------------------------
  // ExplosionEarlyStopping

  datatype ExplosionStopping = ExplosionStopping(
    epochEnd: int, epochStart: int, sampleEpochs: nat,
    ub: Option<Metric>,  // `self.ub`, absent until epoch 0 is seen
    watch: Watch)

  function NewExplosionStopping(epochEnd: int, epochStart: int, sampleEpochs: nat): (x: ExplosionStopping)
    ensures x.epochEnd == epochEnd && x.epochStart == epochStart && x.sampleEpochs == sampleEpochs
    ensures x.ub.None? && x.watch == NewWatch()
  {
    ExplosionStopping(epochEnd, epochStart, sampleEpochs, None, NewWatch())
  }

  /** `current * 10` in float arithmetic. */
  function TimesTen(m: Metric): (r: Metric)
    ensures r.Num? <==> m.Num?
    ensures r.Num? ==> r.x == 10.0 * m.x
  {
    if m.Num? then Num(m.x * 10.0) else NaN
  }

  /** `ExplosionEarlyStopping.on_epoch_end`. A NaN metric stops at once and
      leaves the window alone; otherwise the window is pushed and a full
      window whose median reaches `ub` stops at or after `epoch_start`.
      Reading `ub` before epoch 0 was ever seen raises. */
  function ExplosionOnEpochEnd(x: ExplosionStopping, epoch: int, current: Metric): (r: Result<ExplosionStopping>)
    requires |x.watch.history| <= x.sampleEpochs
    ensures var ub := if epoch == 0 then Some(TimesTen(current)) else x.ub;
            r.Failure? <==> current.Num? && Push(x.watch.history, current, x.sampleEpochs).overflowed && ub.None?
    ensures r.Success? ==> |r.value.watch.history| <= r.value.sampleEpochs
    ensures r.Success? ==> r.value.ub == (if epoch == 0 then Some(TimesTen(current)) else x.ub)
    ensures r.Success? ==> r.value.(ub := x.ub, watch := x.watch) == x
    ensures r.Success? && current.NaN? ==>
              r.value.watch == Watch(x.watch.history, true, epoch)
    ensures r.Success? && current.Num? ==>
              var p := Push(x.watch.history, current, x.sampleEpochs);
              Stepped(x.watch, r.value.watch, current, x.sampleEpochs, epoch,
                      p.overflowed && r.value.ub.value.Num? && AtLeast(MedianMetric(p.window), r.value.ub.value.x)
                      && x.epochStart <= epoch)
  {
    var ub := if epoch == 0 then Some(TimesTen(current)) else x.ub;
    if current.NaN? then
      Success(x.(ub := ub, watch := x.watch.(stopTraining := true, stoppedEpoch := epoch)))
    else
      var p := Push(x.watch.history, current, x.sampleEpochs);
      if !p.overflowed then
        Success(x.(ub := ub, watch := Observe(x.watch, current, x.sampleEpochs, epoch, false)))
      else if ub.None? then Failure(MissingAttribute)
      else
        var fired := ub.value.Num? && AtLeast(MedianMetric(p.window), ub.value.x) && x.epochStart <= epoch;
        Success(x.(ub := ub, watch := Observe(x.watch, current, x.sampleEpochs, epoch, fired)))
  }
}

=== FILE: schedules.dfy ===
/** Epoch-indexed schedules: the step and piecewise-linear breakpoint
    schedules, and the exponentially annealed temperature of the Gumbel-Softmax
    and Binary-Concrete layers. */
module Schedules {
  import opened Wrappers
  import Sorting

  /** One `epoch: value` entry of a schedule dictionary. */
  datatype Breakpoint = Breakpoint(key: int, value: real)

  /** The entries of a dictionary: no key occurs twice. */
  predicate DistinctKeys(s: seq<Breakpoint>) {
    forall i, j :: 0 <= i < j < |s| ==> s[i].key != s[j].key
  }

  /** Entry `i` holds the largest key not above `epoch`. */
  predicate IsFloor(s: seq<Breakpoint>, i: int, epoch: int) {
    && 0 <= i < |s|
    && s[i].key <= epoch
    && forall t :: 0 <= t < |s| && s[t].key <= epoch ==> s[t].key <= s[i].key
  }

  /** Entry `j` holds the smallest key above `epoch`. */
  predicate IsCeiling(s: seq<Breakpoint>, j: int, epoch: int) {
    && 0 <= j < |s|
    && epoch < s[j].key
    && forall t :: 0 <= t < |s| && epoch < s[t].key ==> s[j].key <= s[t].key
  }

  /** Entry `i` holds the smallest key of all. */
  predicate IsLeastKey(s: seq<Breakpoint>, i: int) {
    0 <= i < |s| && forall t :: 0 <= t < |s| ==> s[i].key <= s[t].key
  }

  /** Every key lies above `epoch`. */
  predicate AllAbove(s: seq<Breakpoint>, epoch: int) {
    forall t :: 0 <= t < |s| ==> epoch < s[t].key
  }

  /** No key lies above `epoch`. */
  predicate NoneAbove(s: seq<Breakpoint>, epoch: int) {
    forall t :: 0 <= t < |s| ==> s[t].key <= epoch
  }

  /** The descending-key order `sorted(..., reverse=True)` puts entries in. */
  function KeyGe(a: Breakpoint, b: Breakpoint): bool {
    a.key >= b.key
  }

  lemma KeyGeIsTotalPreorder()
    ensures Sorting.TotalPreorder(KeyGe)
  {
  }

  /** `d` holds the entries of `s` from the largest key to the smallest. */
  predicate IsDescendingOf(d: seq<Breakpoint>, s: seq<Breakpoint>) {
    && multiset(d) == multiset(s)
    && |d| == |s|
    && forall i, j :: 0 <= i < j < |d| ==> d[i].key >= d[j].key
  }

  /** The entries sorted from the largest key to the smallest. */
  function Descending(s: seq<Breakpoint>): (d: seq<Breakpoint>)
    ensures IsDescendingOf(d, s)
  {
    KeyGeIsTotalPreorder();
    var d := Sorting.Sort(s, KeyGe);
    assert forall i, j :: 0 <= i < j < |d| ==> KeyGe(d[i], d[j]);
    d
  }

  /** The loop of `StepSchedule.value`: walk the entries from the largest
      key down, remembering the last one passed, and stop at the first key
      not above `epoch`. */
  function StepScan(d: seq<Breakpoint>, epoch: int, prev: Option<Breakpoint>): Option<real> {
    if |d| == 0 then
      (if prev.Some? then Some(prev.value.value) else None)
    else if d[0].key <= epoch then Some(d[0].value)
    else StepScan(d[1..], epoch, Some(d[0]))
  }

  /** `StepSchedule.value(epoch)`: the value of the largest key not above
      `epoch`, or the value of the smallest key when every key is above it;
      `None` for an empty schedule. */
  function StepValue(schedule: seq<Breakpoint>, epoch: int): (r: Option<real>)
    requires epoch >= 0
    requires DistinctKeys(schedule)
    ensures r.None? <==> |schedule| == 0
    ensures forall i :: IsFloor(schedule, i, epoch) ==> r == Some(schedule[i].value)
    ensures forall i :: AllAbove(schedule, epoch) && IsLeastKey(schedule, i) ==>
              r == Some(schedule[i].value)
  {
    var d := Descending(schedule);
    StepScanCorrect(schedule, d, epoch);
    StepScan(d, epoch, None)
  }

  /** `StepSchedule.value(epoch)` with its leading `assert epoch >= 0`:
      a negative epoch raises before the schedule is looked at. */
  function StepScheduleValue(schedule: seq<Breakpoint>, epoch: int): (r: Result<Option<real>>)
    requires DistinctKeys(schedule)
    ensures r.Failure? <==> epoch < 0
    ensures r.Failure? ==> r.error == AssertionFailed
    ensures r.Success? ==> r.value == StepValue(schedule, epoch)
  {
    if epoch < 0 then Failure(AssertionFailed) else Success(StepValue(schedule, epoch))
  }

  /** The position in a descending scan where the loop stops. */
  ghost function FirstAtMost(d: seq<Breakpoint>, epoch: int): (j: int)
    requires exists t :: 0 <= t < |d| && d[t].key <= epoch
    ensures 0 <= j < |d| && d[j].key <= epoch
    ensures forall t :: 0 <= t < j ==> epoch < d[t].key
  {
    if d[0].key <= epoch then 0
    else
      assert exists t :: 0 <= t < |d[1..]| && d[1..][t].key <= epoch by {
        var t :| 0 <= t < |d| && d[t].key <= epoch;
        assert d[1..][t - 1] == d[t];
      }
      1 + FirstAtMost(d[1..], epoch)
  }

  lemma {:induction false} StepScanStopsAt(d: seq<Breakpoint>, epoch: int, prev: Option<Breakpoint>, j: int)
    requires 0 <= j < |d| && d[j].key <= epoch
    requires forall t :: 0 <= t < j ==> epoch < d[t].key
    ensures StepScan(d, epoch, prev) == Some(d[j].value)
  {
    if j > 0 {
      StepScanStopsAt(d[1..], epoch, Some(d[0]), j - 1);
    }
  }

  lemma {:induction false} StepScanPastEnd(d: seq<Breakpoint>, epoch: int, prev: Option<Breakpoint>)
    requires AllAbove(d, epoch)
    ensures |d| > 0 ==> StepScan(d, epoch, prev) == Some(d[|d| - 1].value)
    ensures |d| == 0 ==> StepScan(d, epoch, prev) == (if prev.Some? then Some(prev.value.value) else None)
  {
    if |d| > 0 {
      StepScanPastEnd(d[1..], epoch, Some(d[0]));
    }
  }

  /** An entry of a permutation of `s` is the entry of `s` holding its key. */
  lemma SameKeySameEntry(s: seq<Breakpoint>, x: Breakpoint, i: int)
    requires DistinctKeys(s)
    requires x in multiset(s)
    requires 0 <= i < |s| && x.key == s[i].key
    ensures x == s[i]
  {
    var m :| 0 <= m < |s| && s[m] == x;
    assert m == i;
  }

  lemma StepScanCorrect(s: seq<Breakpoint>, d: seq<Breakpoint>, epoch: int)
    requires DistinctKeys(s)
    requires IsDescendingOf(d, s)
    ensures StepScan(d, epoch, None).None? <==> |s| == 0
    ensures forall i :: IsFloor(s, i, epoch) ==> StepScan(d, epoch, None) == Some(s[i].value)
    ensures forall i :: AllAbove(s, epoch) && IsLeastKey(s, i) ==>
              StepScan(d, epoch, None) == Some(s[i].value)
  {
    forall i | IsFloor(s, i, epoch)
      ensures StepScan(d, epoch, None) == Some(s[i].value)
    {
      FloorInDescending(s, d, epoch, i);
      var j := FirstAtMost(d, epoch);
      StepScanStopsAt(d, epoch, None, j);
    }
    if AllAbove(s, epoch) {
      AllAboveInDescending(s, d, epoch);
      StepScanPastEnd(d, epoch, None);
      forall i | IsLeastKey(s, i)
        ensures StepScan(d, epoch, None) == Some(s[i].value)
      {
        LastIsLeast(s, d, i);
      }
    } else if |s| > 0 {
      var t :| 0 <= t < |s| && s[t].key <= epoch;
      assert s[t] in multiset(d);
      var u :| 0 <= u < |d| && d[u] == s[t];
      StepScanStopsAt(d, epoch, None, FirstAtMost(d, epoch));
    }
  }

  /** The entry where a descending scan stops is the floor entry of `s`. */
  lemma FloorInDescending(s: seq<Breakpoint>, d: seq<Breakpoint>, epoch: int, i: int)
    requires DistinctKeys(s)
    requires IsDescendingOf(d, s)
    requires IsFloor(s, i, epoch)
    ensures exists t :: 0 <= t < |d| && d[t].key <= epoch
    ensures d[FirstAtMost(d, epoch)] == s[i]
  {
    assert s[i] in multiset(d);
    var p :| 0 <= p < |d| && d[p] == s[i];
    assert d[p].key <= epoch;
    var j := FirstAtMost(d, epoch);
    assert d[j] in multiset(s);
    var m :| 0 <= m < |s| && s[m] == d[j];
    assert d[j].key <= s[i].key;
    assert j <= p;
    assert d[j].key >= d[p].key;
    SameKeySameEntry(s, d[j], i);
  }

  lemma AllAboveInDescending(s: seq<Breakpoint>, d: seq<Breakpoint>, epoch: int)
    requires IsDescendingOf(d, s)
    requires AllAbove(s, epoch)
    ensures AllAbove(d, epoch)
  {
    forall t | 0 <= t < |d|
      ensures epoch < d[t].key
    {
      assert d[t] in multiset(s);
    }
  }

  /** The last entry of the descending order is the entry with the least key. */
  lemma LastIsLeast(s: seq<Breakpoint>, d: seq<Breakpoint>, i: int)
    requires DistinctKeys(s)
    requires IsDescendingOf(d, s)
    requires IsLeastKey(s, i)
    ensures |d| > 0 && d[|d| - 1] == s[i]
  {
    assert s[i] in multiset(d);
    var p :| 0 <= p < |d| && d[p] == s[i];
    var last := d[|d| - 1];
    assert last in multiset(s);
    var m :| 0 <= m < |s| && s[m] == last;
    assert last.key <= d[p].key;
    SameKeySameEntry(s, last, i);
  }

  /** The value `LinearSchedule.value` computes strictly between the keys of
      `b` (below `epoch`) and `p` (above it). */
  function Interpolate(p: Breakpoint, b: Breakpoint, epoch: int): real
    requires b.key != p.key
  {
    p.value + (epoch - p.key) as real * (b.value - p.value) / (b.key - p.key) as real
  }

  /** The loop of `LinearSchedule.value`: the same descending walk as
      `StepScan`, but a stop after at least one passed entry interpolates. */
  function LinearScan(d: seq<Breakpoint>, epoch: int, prev: Option<Breakpoint>): Option<real>
    requires prev.Some? ==> epoch < prev.value.key
  {
    if |d| == 0 then
      (if prev.Some? then Some(prev.value.value) else None)
    else if d[0].key <= epoch then
      (if prev.None? then Some(d[0].value) else Some(Interpolate(prev.value, d[0], epoch)))
    else LinearScan(d[1..], epoch, Some(d[0]))
  }

  /** `LinearSchedule.value(epoch)`: the configured value at and after the
      largest key and before the smallest key, and the straight line through
      the two neighbouring entries strictly between two keys; `None` for an
      empty schedule. */
  function LinearValue(schedule: seq<Breakpoint>, epoch: int): (r: Option<real>)
    requires epoch >= 0
    requires DistinctKeys(schedule)
    ensures r.None? <==> |schedule| == 0
    ensures forall i :: IsFloor(schedule, i, epoch) && NoneAbove(schedule, epoch) ==>
              r == Some(schedule[i].value)
    ensures forall i :: AllAbove(schedule, epoch) && IsLeastKey(schedule, i) ==>
              r == Some(schedule[i].value)
    ensures forall i, j :: IsFloor(schedule, i, epoch) && IsCeiling(schedule, j, epoch) ==>
              r == Some(Interpolate(schedule[j], schedule[i], epoch))
  {
    var d := Descending(schedule);
    LinearScanCorrect(schedule, d, epoch);
    LinearScan(d, epoch, None)
  }

  /** `LinearSchedule.value(epoch)` with its leading `assert epoch >= 0`. */
  function LinearScheduleValue(schedule: seq<Breakpoint>, epoch: int): (r: Result<Option<real>>)
    requires DistinctKeys(schedule)
    ensures r.Failure? <==> epoch < 0
    ensures r.Failure? ==> r.error == AssertionFailed
    ensures r.Success? ==> r.value == LinearValue(schedule, epoch)
  {
    if epoch < 0 then Failure(AssertionFailed) else Success(LinearValue(schedule, epoch))
  }

  lemma {:induction false} LinearScanStopsAt(d: seq<Breakpoint>, epoch: int, prev: Option<Breakpoint>, j: int)
    requires prev.Some? ==> epoch < prev.value.key
    requires 0 <= j < |d| && d[j].key <= epoch
    requires forall t :: 0 <= t < j ==> epoch < d[t].key
    ensures j == 0 && prev.None? ==> LinearScan(d, epoch, prev) == Some(d[0].value)
    ensures j == 0 && prev.Some? ==> LinearScan(d, epoch, prev) == Some(Interpolate(prev.value, d[0], epoch))
    ensures j > 0 ==> LinearScan(d, epoch, prev) == Some(Interpolate(d[j - 1], d[j], epoch))
  {
    if j > 0 {
      LinearScanStopsAt(d[1..], epoch, Some(d[0]), j - 1);
    }
  }

  lemma {:induction false} LinearScanPastEnd(d: seq<Breakpoint>, epoch: int, prev: Option<Breakpoint>)
    requires prev.Some? ==> epoch < prev.value.key
    requires AllAbove(d, epoch)
    ensures |d| > 0 ==> LinearScan(d, epoch, prev) == Some(d[|d| - 1].value)
    ensures |d| == 0 ==> LinearScan(d, epoch, prev) == (if prev.Some? then Some(prev.value.value) else None)
  {
    if |d| > 0 {
      LinearScanPastEnd(d[1..], epoch, Some(d[0]));
    }
  }

  /** The entry just before the stop of a descending scan is the ceiling entry of `s`. */
  lemma CeilingInDescending(s: seq<Breakpoint>, d: seq<Breakpoint>, epoch: int, i: int, j: int)
    requires DistinctKeys(s)
    requires IsDescendingOf(d, s)
    requires IsFloor(s, i, epoch) && IsCeiling(s, j, epoch)
    ensures exists t :: 0 <= t < |d| && d[t].key <= epoch
    ensures FirstAtMost(d, epoch) > 0
    ensures d[FirstAtMost(d, epoch) - 1] == s[j]
  {
    FloorInDescending(s, d, epoch, i);
    var f := FirstAtMost(d, epoch);
    assert s[j] in multiset(d);
    var q :| 0 <= q < |d| && d[q] == s[j];
    assert q < f;
    var c := d[f - 1];
    assert c in multiset(s);
    var m :| 0 <= m < |s| && s[m] == c;
    assert s[j].key <= c.key;
    assert c.key <= d[q].key by {
      if q < f - 1 {
        assert d[q].key >= d[f - 1].key;
      }
    }
    SameKeySameEntry(s, c, j);
  }

  lemma LinearScanCorrect(s: seq<Breakpoint>, d: seq<Breakpoint>, epoch: int)
    requires DistinctKeys(s)
    requires IsDescendingOf(d, s)
    ensures LinearScan(d, epoch, None).None? <==> |s| == 0
    ensures forall i :: IsFloor(s, i, epoch) && NoneAbove(s, epoch) ==>
              LinearScan(d, epoch, None) == Some(s[i].value)
    ensures forall i :: AllAbove(s, epoch) && IsLeastKey(s, i) ==>
              LinearScan(d, epoch, None) == Some(s[i].value)
    ensures forall i, j :: IsFloor(s, i, epoch) && IsCeiling(s, j, epoch) ==>
              LinearScan(d, epoch, None) == Some(Interpolate(s[j], s[i], epoch))
  {
    forall i | IsFloor(s, i, epoch) && NoneAbove(s, epoch)
      ensures LinearScan(d, epoch, None) == Some(s[i].value)
    {
      FloorInDescending(s, d, epoch, i);
      HeadNotAbove(s, d, epoch);
      var f := FirstAtMost(d, epoch);
      assert f == 0;
      LinearScanStopsAt(d, epoch, None, f);
    }
    forall i, j | IsFloor(s, i, epoch) && IsCeiling(s, j, epoch)
      ensures LinearScan(d, epoch, None) == Some(Interpolate(s[j], s[i], epoch))
    {
      FloorInDescending(s, d, epoch, i);
      CeilingInDescending(s, d, epoch, i, j);
      LinearScanStopsAt(d, epoch, None, FirstAtMost(d, epoch));
    }
    if AllAbove(s, epoch) {
      AllAboveInDescending(s, d, epoch);
      LinearScanPastEnd(d, epoch, None);
      forall i | IsLeastKey(s, i)
        ensures LinearScan(d, epoch, None) == Some(s[i].value)
      {
        LastIsLeast(s, d, i);
      }
    } else if |s| > 0 {
      var t :| 0 <= t < |s| && s[t].key <= epoch;
      assert s[t] in multiset(d);
      var u :| 0 <= u < |d| && d[u] == s[t];
      var f := FirstAtMost(d, epoch);
      LinearScanStopsAt(d, epoch, None, f);
    }
  }

  /** When no key lies above `epoch`, neither does the first entry of the
      descending order. */
  lemma HeadNotAbove(s: seq<Breakpoint>, d: seq<Breakpoint>, epoch: int)
    requires IsDescendingOf(d, s) && NoneAbove(s, epoch) && |s| > 0
    ensures d[0].key <= epoch
  {
    assert d[0] in multiset(s);
  }

  /** Some entry holds the smallest key above `epoch` whenever any key is above it. */
  ghost function CeilingOf(s: seq<Breakpoint>, epoch: int): (j: int)
    requires exists t :: 0 <= t < |s| && epoch < s[t].key
    ensures IsCeiling(s, j, epoch)
  {
    var n := |s| - 1;
    if !(exists t :: 0 <= t < n && epoch < s[t].key) then n
    else
      var init := s[..n];
      assert exists t :: 0 <= t < |init| && epoch < init[t].key by {
        var t :| 0 <= t < n && epoch < s[t].key;
        assert init[t] == s[t];
      }
      var j := CeilingOf(init, epoch);
      if epoch < s[n].key && s[n].key < s[j].key then n else j
  }

  /** At the key of `b` the interpolation gives exactly `b`'s value. */
  lemma InterpolateAtKey(p: Breakpoint, b: Breakpoint)
    requires b.key != p.key
    ensures Interpolate(p, b, b.key) == b.value
  {
    var dk := (b.key - p.key) as real;
    var dv := b.value - p.value;
    assert dk * dv / dk == dv;
  }

  /** Halfway between the keys the interpolation gives the mean value. */
  lemma InterpolateHalfway(p: Breakpoint, b: Breakpoint, epoch: int)
    requires b.key != p.key
    requires 2 * epoch == b.key + p.key
    ensures Interpolate(p, b, epoch) == (b.value + p.value) / 2.0
  {
    var dk := (b.key - p.key) as real;
    var dv := b.value - p.value;
    assert (epoch - p.key) as real == dk / 2.0;
    assert dk / 2.0 * dv / dk == dv / 2.0;
  }

  /** Between the keys the interpolation stays between the two values. */
  lemma InterpolateBetween(p: Breakpoint, b: Breakpoint, epoch: int)
    requires b.key <= epoch < p.key
    ensures var v := Interpolate(p, b, epoch);
            (b.value <= v <= p.value) || (p.value <= v <= b.value)
  {
    var x := (epoch - p.key) as real;
    var dk := (b.key - p.key) as real;
    var dv := b.value - p.value;
    var f := x / dk;
    assert 0.0 < f <= 1.0;
    assert x * dv / dk == f * dv;
  }

  /** The interpolation clause of `LinearValue`, for one floor and ceiling. */
  lemma LinearValueInterpolates(s: seq<Breakpoint>, epoch: int, i: int, j: int)
    requires DistinctKeys(s)
    requires epoch >= 0
    requires IsFloor(s, i, epoch) && IsCeiling(s, j, epoch)
    ensures LinearValue(s, epoch) == Some(Interpolate(s[j], s[i], epoch))
  {
  }

  /** At every breakpoint epoch the linear schedule returns exactly the
      configured value. */
  lemma LinearAtBreakpoint(s: seq<Breakpoint>, i: int)
    requires DistinctKeys(s)
    requires 0 <= i < |s| && s[i].key >= 0
    ensures LinearValue(s, s[i].key) == Some(s[i].value)
  {
    var e := s[i].key;
    assert IsFloor(s, i, e);
    if !NoneAbove(s, e) {
      var j := CeilingOf(s, e);
      LinearValueInterpolates(s, e, i, j);
      InterpolateAtKey(s[j], s[i]);
    }
  }

  /** Step and linear schedules agree with each other, and with the
      configured value, at every breakpoint epoch. */
  lemma StepLinearAgreeAtBreakpoints(s: seq<Breakpoint>, i: int)
    requires DistinctKeys(s)
    requires 0 <= i < |s| && s[i].key >= 0
    ensures StepValue(s, s[i].key) == LinearValue(s, s[i].key) == Some(s[i].value)
  {
    assert IsFloor(s, i, s[i].key);
    LinearAtBreakpoint(s, i);
  }

  /** Halfway between two neighbouring keys the linear schedule returns the
      mean of their values. */
  lemma LinearMidpoint(s: seq<Breakpoint>, epoch: int, i: int, j: int)
    requires DistinctKeys(s)
    requires epoch >= 0
    requires IsFloor(s, i, epoch) && IsCeiling(s, j, epoch)
    requires 2 * epoch == s[i].key + s[j].key
    ensures LinearValue(s, epoch) == Some((s[i].value + s[j].value) / 2.0)
  {
    LinearValueInterpolates(s, epoch, i, j);
    InterpolateHalfway(s[j], s[i], epoch);
    SomeOfEqual(LinearValue(s, epoch), Interpolate(s[j], s[i], epoch), (s[i].value + s[j].value) / 2.0);
  }

  lemma SomeOfEqual(r: Option<real>, x: real, y: real)
    requires r == Some(x) && x == y
    ensures r == Some(y)
  {
  }

  /** Strictly between two neighbouring keys the linear schedule stays within
      the range of their two values. */
  lemma LinearBetweenNeighbours(s: seq<Breakpoint>, epoch: int, i: int, j: int)
    requires DistinctKeys(s)
    requires epoch >= 0
    requires IsFloor(s, i, epoch) && IsCeiling(s, j, epoch)
    ensures LinearValue(s, epoch).Some?
    ensures var v := LinearValue(s, epoch).value;
            (s[i].value <= v <= s[j].value) || (s[j].value <= v <= s[i].value)
  {
    LinearValueInterpolates(s, epoch, i, j);
    InterpolateBetween(s[j], s[i], epoch);
  }

  /** The scenario `StepSchedule({0: 1.0, 10: 0.5, 20: 0.1})`. */
  lemma StepScheduleScenario()
    ensures var s := [Breakpoint(0, 1.0), Breakpoint(10, 0.5), Breakpoint(20, 0.1)];
            && StepValue(s, 5) == Some(1.0)
            && StepValue(s, 10) == Some(0.5)
            && StepValue(s, 15) == Some(0.5)
            && StepValue(s, 25) == Some(0.1)
  {
    var s := [Breakpoint(0, 1.0), Breakpoint(10, 0.5), Breakpoint(20, 0.1)];
    assert IsFloor(s, 0, 5);
    assert IsFloor(s, 1, 10);
    assert IsFloor(s, 1, 15);
    assert IsFloor(s, 2, 25);
  }

  /** The schedule `LinearSchedule({0: 0.0, 10: 1.0, 20: 1.0})` ramps up and then stays flat. */
  lemma LinearScheduleScenario()
    ensures DistinctKeys(RampSchedule())
    ensures LinearValue(RampSchedule(), 0) == Some(0.0)
    ensures LinearValue(RampSchedule(), 4) == Some(0.4)
    ensures LinearValue(RampSchedule(), 15) == Some(1.0)
    ensures LinearValue(RampSchedule(), 30) == Some(1.0)
  {
    var s := RampSchedule();
    LinearAtBreakpoint(s, 0);
    RampAt4();
    RampAt15();
    RampAt30();
  }

  function RampSchedule(): seq<Breakpoint> {
    [Breakpoint(0, 0.0), Breakpoint(10, 1.0), Breakpoint(20, 1.0)]
  }

  lemma RampAt4()
    ensures LinearValue(RampSchedule(), 4) == Some(0.4)
  {
    var s := RampSchedule();
    assert IsFloor(s, 0, 4) && IsCeiling(s, 1, 4);
    LinearValueInterpolates(s, 4, 0, 1);
    InterpolateRamp(s[1], s[0]);
  }

  lemma InterpolateRamp(p: Breakpoint, b: Breakpoint)
    requires p == Breakpoint(10, 1.0) && b == Breakpoint(0, 0.0)
    ensures Interpolate(p, b, 4) == 0.4
  {
  }

  lemma RampAt30()
    ensures LinearValue(RampSchedule(), 30) == Some(1.0)
  {
    var s := RampSchedule();
    assert IsFloor(s, 2, 30) && NoneAbove(s, 30);
  }

  lemma RampAt15()
    ensures LinearValue(RampSchedule(), 15) == Some(1.0)
  {
    var s := RampSchedule();
    assert IsFloor(s, 1, 15) && IsCeiling(s, 2, 15);
    LinearValueInterpolates(s, 15, 1, 2);
    InterpolateFlat(s[2], s[1]);
  }

  lemma InterpolateFlat(p: Breakpoint, b: Breakpoint)
    requires p == Breakpoint(20, 1.0) && b == Breakpoint(10, 1.0)
    ensures Interpolate(p, b, 15) == 1.0
  {
  }

  // ---------------------------------------------------------------------
  // Exponential annealing of the relaxation temperature

  function RealMax(a: real, b: real): real {
    if a >= b then a else b
  }

  /** `anneal_rate(span, min, max)`: `log(max / min) / span`, with the
      exceptions Python raises on the way. The logarithm is a parameter. */
  function AnnealRate(span: int, min: real, max: real, ln: real -> real): (r: Result<real>)
    ensures min == 0.0 ==> r == Failure(ZeroDivision)
    ensures min != 0.0 && max / min <= 0.0 ==> r == Failure(MathDomain)
    ensures min != 0.0 && max / min > 0.0 && span == 0 ==> r == Failure(ZeroDivision)
    ensures r.Success? ==> span != 0 && r.value * span as real == ln(max / min)
  {
    if min == 0.0 then Failure(ZeroDivision)
    else if max / min <= 0.0 then Failure(MathDomain)
    else if span == 0 then Failure(ZeroDivision)
    else Success(ln(max / min) / span as real)
  }

  /** The annealing configuration a `GumbelSoftmax` or `BinaryConcrete` layer keeps. */
  datatype Annealing = Annealing(min: real, max: real, rate: real, offset: int)

  /** The annealing part of the `GumbelSoftmax` / `BinaryConcrete` constructors:
      the rate spans the epochs from `offset` to `fullEpoch`. */
  function NewAnnealing(min: real, max: real, fullEpoch: int, offset: int, ln: real -> real): (r: Result<Annealing>)
    ensures r.Success? <==> min != 0.0 && max / min > 0.0 && fullEpoch != offset
    ensures r.Success? ==> r.value.min == min && r.value.max == max && r.value.offset == offset
    ensures r.Success? ==> r.value.rate * (fullEpoch - offset) as real == ln(max / min)
  {
    var rate :- AnnealRate(fullEpoch - offset, min, max, ln);
    Success(Annealing(min, max, rate, offset))
  }

  /** The temperature `value(epoch)` of both relaxation layers:
      `max(min, max * exp(-rate * max(epoch - offset, 0)))`, with the
      exponential a parameter. It never drops below `min` and is flat up to
      the offset epoch. */
  function Temperature(a: Annealing, exp: real -> real, epoch: int): (t: real)
    ensures t >= a.min
    ensures epoch <= a.offset ==> t == RealMax(a.min, a.max * exp(0.0))
  {
    var elapsed := if epoch - a.offset >= 0 then epoch - a.offset else 0;
    assert elapsed == 0 ==> -a.rate * elapsed as real == 0.0;
    RealMax(a.min, a.max * exp(-a.rate * elapsed as real))
  }

  ghost predicate NonDecreasing(f: real -> real) {
    forall x, y :: x <= y ==> f(x) <= f(y)
  }

  /** With a non-negative rate, a non-negative initial value and a monotone
      exponential, the temperature never rises from one epoch to a later one. */
  lemma TemperatureNonIncreasing(a: Annealing, exp: real -> real, e1: int, e2: int)
    requires NonDecreasing(exp)
    requires a.rate >= 0.0 && a.max >= 0.0
    requires e1 <= e2
    ensures Temperature(a, exp, e2) <= Temperature(a, exp, e1)
  {
    var x1 := if e1 - a.offset >= 0 then e1 - a.offset else 0;
    var x2 := if e2 - a.offset >= 0 then e2 - a.offset else 0;
    assert x1 <= x2;
    MulMonotone(a.rate, x1 as real, x2 as real);
    assert exp(-a.rate * x2 as real) <= exp(-a.rate * x1 as real);
    MulMonotone(a.max, exp(-a.rate * x2 as real), exp(-a.rate * x1 as real));
  }

  lemma MulMonotone(k: real, x: real, y: real)
    requires k >= 0.0 && x <= y
    ensures k * x <= k * y
  {
  }

  /** When `ln` is non-negative from 1 on and `exp` undoes it at
      `max / min`, the temperature built by the
      constructor reaches `min` exactly at `fullEpoch` and stays there. */
  lemma TemperatureReachesMin(min: real, max: real, fullEpoch: int, offset: int,
                              ln: real -> real, exp: real -> real, epoch: int)
    requires 0.0 < min <= max
    requires offset < fullEpoch <= epoch
    requires forall y :: y >= 1.0 ==> ln(y) >= 0.0
    requires exp(-ln(max / min)) == min / max
    requires NonDecreasing(exp)
    ensures NewAnnealing(min, max, fullEpoch, offset, ln).Success?
    ensures Temperature(NewAnnealing(min, max, fullEpoch, offset, ln).value, exp, epoch) == min
  {
    var a := NewAnnealing(min, max, fullEpoch, offset, ln).value;
    var span := fullEpoch - offset;
    var l := ln(max / min);
    assert a.rate * span as real == l;
    assert -a.rate * span as real == -l;
    assert exp(-a.rate * span as real) == min / max;
    MulQuotient(max, min);
    assert Temperature(a, exp, fullEpoch) == min;
    QuotientAtLeastOne(max, min);
    PositiveRate(l, a.rate, span as real);
    TemperatureNonIncreasing(a, exp, fullEpoch, epoch);
  }

  lemma QuotientAtLeastOne(a: real, b: real)
    requires 0.0 < b <= a
    ensures a / b >= 1.0
  {
  }

  lemma MulQuotient(a: real, b: real)
    requires a != 0.0
    ensures a * (b / a) == b
  {
  }

  lemma PositiveRate(l: real, rate: real, span: real)
    requires span > 0.0 && rate * span == l && l >= 0.0
    ensures rate >= 0.0
  {
  }
}

=== FILE: sorting.dfy ===
/** A stable insertion sort over any total preorder. It stands in for the
    library sorts the modelled code calls (`sorted`, `np.sort`, the sort
    inside `np.median`); only the result they produce matters here. */
module Sorting {

  /** `le` is total and transitive. */
  ghost predicate TotalPreorder<T(!new)>(le: (T, T) -> bool) {
    && (forall a, b :: le(a, b) || le(b, a))
    && (forall a, b, c :: le(a, b) && le(b, c) ==> le(a, c))
  }

  /** `le` is a total preorder that is also antisymmetric. */
  ghost predicate TotalOrder<T(!new)>(le: (T, T) -> bool) {
    TotalPreorder(le) && Antisymmetric(le)
  }

  predicate SortedBy<T>(s: seq<T>, le: (T, T) -> bool) {
    forall i, j :: 0 <= i < j < |s| ==> le(s[i], s[j])
  }

  function Insert<T(!new)>(x: T, s: seq<T>, le: (T, T) -> bool): (r: seq<T>)
    requires TotalPreorder(le)
    requires SortedBy(s, le)
    ensures SortedBy(r, le)
    ensures multiset(r) == multiset(s) + multiset{x}
    ensures |r| == |s| + 1
  {
    if |s| == 0 then [x]
    else if le(x, s[0]) then
      InsertFrontSorted(x, s, le);
      [x] + s
    else
      var rest := Insert(x, s[1..], le);
      InsertBehindSorted(x, s, rest, le);
      assert s == [s[0]] + s[1..];
      [s[0]] + rest
  }

  lemma InsertFrontSorted<T(!new)>(x: T, s: seq<T>, le: (T, T) -> bool)
    requires TotalPreorder(le)
    requires SortedBy(s, le) && |s| > 0 && le(x, s[0])
    ensures SortedBy([x] + s, le)
  {
    forall j | 0 <= j < |s|
      ensures le(x, s[j])
    {
      if j > 0 {
        assert le(s[0], s[j]);
      }
    }
  }

  lemma InsertBehindSorted<T(!new)>(x: T, s: seq<T>, rest: seq<T>, le: (T, T) -> bool)
    requires TotalPreorder(le)
    requires SortedBy(s, le) && |s| > 0 && !le(x, s[0])
    requires SortedBy(rest, le)
    requires multiset(rest) == multiset(s[1..]) + multiset{x}
    ensures SortedBy([s[0]] + rest, le)
  {
    forall k | 0 <= k < |rest|
      ensures le(s[0], rest[k])
    {
      assert rest[k] in multiset(rest);
      if rest[k] != x {
        assert rest[k] in multiset(s[1..]);
        var m :| 0 <= m < |s[1..]| && s[1..][m] == rest[k];
        assert s[m + 1] == rest[k];
      }
    }
  }

  /** The sorted rearrangement of `s`. */
  function Sort<T(!new)>(s: seq<T>, le: (T, T) -> bool): (r: seq<T>)
    requires TotalPreorder(le)
    ensures SortedBy(r, le)
    ensures multiset(r) == multiset(s)
    ensures |r| == |s|
  {
    if |s| == 0 then []
    else
      assert s == [s[0]] + s[1..];
      Insert(s[0], Sort(s[1..], le), le)
  }

  ghost predicate Antisymmetric<T(!new)>(le: (T, T) -> bool) {
    forall a, b :: le(a, b) && le(b, a) ==> a == b
  }

  /** Two sorted arrangements of one multiset start with the same element. */
  lemma SortedSameHead<T(!new)>(a: seq<T>, b: seq<T>, le: (T, T) -> bool)
    requires Antisymmetric(le)
    requires SortedBy(a, le) && SortedBy(b, le)
    requires multiset(a) == multiset(b) && |a| > 0
    ensures |b| > 0 && a[0] == b[0]
  {
    assert a[0] in multiset(b);
    var i :| 0 <= i < |b| && b[i] == a[0];
    assert b[0] in multiset(a);
    var j :| 0 <= j < |a| && a[j] == b[0];
    assert le(b[0], b[i]) || i == 0;
    assert le(a[0], a[j]) || j == 0;
  }

  /** Under a total order there is only one sorted arrangement of a multiset. */
  lemma {:induction false} SortedUnique<T(!new)>(a: seq<T>, b: seq<T>, le: (T, T) -> bool)
    requires Antisymmetric(le)
    requires SortedBy(a, le) && SortedBy(b, le)
    requires multiset(a) == multiset(b)
    ensures a == b
  {
    if |a| == 0 {
      assert |b| == |multiset(b)| == 0;
    } else {
      SortedSameHead(a, b, le);
      assert multiset(a[1..]) == multiset(a) - multiset{a[0]} by {
        assert a == [a[0]] + a[1..];
      }
      assert multiset(b[1..]) == multiset(b) - multiset{b[0]} by {
        assert b == [b[0]] + b[1..];
      }
      SortedUnique(a[1..], b[1..], le);
    }
  }

  /** Sorting sees only the multiset of its input. */
  lemma SortPermutationInvariant<T(!new)>(a: seq<T>, b: seq<T>, le: (T, T) -> bool)
    requires TotalOrder(le)
    requires multiset(a) == multiset(b)
    ensures Sort(a, le) == Sort(b, le)
  {
    SortedUnique(Sort(a, le), Sort(b, le), le);
  }

  /** `f` applied to every element. */
  function Map<A, B>(f: A -> B, s: seq<A>): (r: seq<B>)
    ensures |r| == |s| && forall i :: 0 <= i < |s| ==> r[i] == f(s[i])
  {
    seq(|s|, i requires 0 <= i < |s| => f(s[i]))
  }

  /** Mapping both sides of a permutation gives a permutation. */
  lemma {:induction false} MapPermutation<A, B>(f: A -> B, a: seq<A>, b: seq<A>)
    requires multiset(a) == multiset(b)
    ensures multiset(Map(f, a)) == multiset(Map(f, b))
    decreases |a|
  {
    if |a| == 0 {
      assert |b| == |multiset(b)| == 0;
    } else {
      var x := a[0];
      assert x in multiset(b) by {
        assert a == [x] + a[1..];
      }
      var j :| 0 <= j < |b| && b[j] == x;
      var rest := b[..j] + b[j + 1..];
      RemoveAt(b, j);
      RemoveAt(a, 0);
      assert a[..0] + a[1..] == a[1..];
      MapPermutation(f, a[1..], rest);
      MapRemoveAt(f, b, j);
      MapRemoveAt(f, a, 0);
    }
  }

  lemma RemoveAt<T>(s: seq<T>, j: int)
    requires 0 <= j < |s|
    ensures multiset(s[..j] + s[j + 1..]) == multiset(s) - multiset{s[j]}
  {
    assert s == s[..j] + [s[j]] + s[j + 1..];
  }

  lemma MapRemoveAt<A, B>(f: A -> B, s: seq<A>, j: int)
    requires 0 <= j < |s|
    ensures multiset(Map(f, s)) == multiset(Map(f, s[..j] + s[j + 1..])) + multiset{f(s[j])}
  {
    assert Map(f, s) == Map(f, s[..j]) + [f(s[j])] + Map(f, s[j + 1..]);
    assert Map(f, s[..j] + s[j + 1..]) == Map(f, s[..j]) + Map(f, s[j + 1..]);
  }
}

=== FILE: stats.dfy ===
/** Monitored metric values and the numpy reductions the early-stopping
    callbacks apply to their history windows. Floats are idealised as reals;
    NaN is kept as a value of its own because the callbacks meet it. */
module Stats {
  import Sorting

  /** A float metric as reported by the training loop: a number or NaN. */
  datatype Metric = Num(x: real) | NaN

  predicate AllNumbers(w: seq<Metric>) {
    forall i :: 0 <= i < |w| ==> w[i].Num?
  }

  /** The numbers of a NaN-free window, in order. */
  function Values(w: seq<Metric>): (r: seq<real>)
    requires AllNumbers(w)
    ensures |r| == |w|
    ensures forall i :: 0 <= i < |w| ==> w[i] == Num(r[i])
  {
    seq(|w|, i requires 0 <= i < |w| => w[i].x)
  }

  function Sum(xs: seq<real>): real {
    if |xs| == 0 then 0.0 else xs[0] + Sum(xs[1..])
  }

  /** `np.mean` of a non-empty array. */
  function Mean(xs: seq<real>): real
    requires |xs| > 0
  {
    Sum(xs) / (|xs| as real)
  }

  /** `np.amax` of a non-empty array. */
  function Max(xs: seq<real>): (m: real)
    requires |xs| > 0
    ensures m in xs
    ensures forall i :: 0 <= i < |xs| ==> xs[i] <= m
  {
    if |xs| == 1 then xs[0]
    else
      var rest := Max(xs[1..]);
      assert forall i :: 1 <= i < |xs| ==> xs[i] == xs[1..][i - 1];
      if xs[0] >= rest then xs[0] else rest
  }

  /** `np.amin` of a non-empty array. */
  function Min(xs: seq<real>): (m: real)
    requires |xs| > 0
    ensures m in xs
    ensures forall i :: 0 <= i < |xs| ==> m <= xs[i]
  {
    if |xs| == 1 then xs[0]
    else
      var rest := Min(xs[1..]);
      assert forall i :: 1 <= i < |xs| ==> xs[i] == xs[1..][i - 1];
      if xs[0] <= rest then xs[0] else rest
  }

  /** The usual order on reals, as a value the generic sort accepts. */
  function RealLe(a: real, b: real): bool {
    a <= b
  }

  lemma RealLeIsTotalOrder()
    ensures Sorting.TotalOrder(RealLe)
  {
  }

  function SortReals(xs: seq<real>): (r: seq<real>)
    ensures Sorting.SortedBy(r, RealLe)
    ensures multiset(r) == multiset(xs)
    ensures |r| == |xs|
  {
    RealLeIsTotalOrder();
    Sorting.Sort(xs, RealLe)
  }

  /** `np.median` of a non-empty array: sort, then take the middle element,
      or the mean of the two middle elements when the length is even. */
  function Median(xs: seq<real>): (m: real)
    requires |xs| > 0
    ensures Min(xs) <= m <= Max(xs)
    ensures |xs| % 2 == 1 ==> m in xs
  {
    var s := SortReals(xs);
    var n := |s|;
    ElementBounds(xs, s, n / 2);
    if n % 2 == 1 then
      assert s[n / 2] in multiset(xs);
      Middle(s)
    else
      ElementBounds(xs, s, n / 2 - 1);
      MidpointBetween(s[n / 2 - 1], s[n / 2], Min(xs), Max(xs));
      Middle(s)
  }

  /** The middle element of a sorted array, or the mean of its two middle
      elements when the length is even. */
  function Middle(s: seq<real>): real
    requires |s| > 0
  {
    var n := |s|;
    if n % 2 == 1 then s[n / 2] else (s[n / 2 - 1] + s[n / 2]) / 2.0
  }

  lemma ElementBounds(xs: seq<real>, s: seq<real>, k: int)
    requires |xs| > 0 && multiset(s) == multiset(xs) && 0 <= k < |s|
    ensures Min(xs) <= s[k] <= Max(xs)
  {
    assert s[k] in multiset(xs);
    var i :| 0 <= i < |xs| && xs[i] == s[k];
  }

  lemma MidpointBetween(a: real, b: real, lo: real, hi: real)
    requires lo <= a <= hi && lo <= b <= hi
    ensures lo <= (a + b) / 2.0 <= hi
  {
  }

  /** The median is the middle of any sorted arrangement of the window: the
      middle element, or the mean of the two middle elements at even length. */
  lemma MedianIsMiddle(xs: seq<real>, s: seq<real>)
    requires |xs| > 0
    requires Sorting.SortedBy(s, RealLe) && multiset(s) == multiset(xs)
    ensures |s| == |xs|
    ensures |s| % 2 == 1 ==> Median(xs) == s[|s| / 2]
    ensures |s| % 2 == 0 ==> Median(xs) == (s[|s| / 2 - 1] + s[|s| / 2]) / 2.0
  {
    assert |s| == |multiset(s)| == |xs|;
    RealLeIsTotalOrder();
    Sorting.SortedUnique(s, SortReals(xs), RealLe);
  }

  /** The median depends only on the multiset of the window, not its order. */
  lemma MedianPermutationInvariant(a: seq<real>, b: seq<real>)
    requires |a| > 0
    requires multiset(a) == multiset(b)
    ensures |b| > 0 && Median(a) == Median(b)
  {
    assert |b| == |multiset(b)| == |a|;
    RealLeIsTotalOrder();
    Sorting.SortPermutationInvariant(a, b, RealLe);
  }

  /** The median of a window holding one value repeated is that value. */
  lemma MedianOfConstant(xs: seq<real>, c: real)
    requires |xs| > 0
    requires forall i :: 0 <= i < |xs| ==> xs[i] == c
    ensures Median(xs) == c
  {
    var s := SortReals(xs);
    forall k | 0 <= k < |s|
      ensures s[k] == c
    {
      assert s[k] in multiset(xs);
    }
  }

  /** `np.median` of a window of metrics: NaN when the window is empty or holds a NaN. */
  function MedianMetric(w: seq<Metric>): (m: Metric)
    ensures m.Num? <==> |w| > 0 && AllNumbers(w)
  {
    if |w| > 0 && AllNumbers(w) then Num(Median(Values(w))) else NaN
  }

  /** The float comparison `m >= u`: false whenever `m` is NaN. */
  predicate AtLeast(m: Metric, u: real) {
    m.Num? && m.x >= u
  }

  /** The float comparison `m <= u`: false whenever `m` is NaN. */
  predicate AtMost(m: Metric, u: real) {
    m.Num? && m.x <= u
  }
}

=== FILE: vector_quantizer.dfy ===
/** The forward pass of the vector-quantisation layer, over exact reals.
    The codebook is an `embedding_dim x num_classes` matrix whose columns
    are the codewords; every input vector is replaced by its nearest
    column, the distance being computed through the expansion
    `||x||^2 - 2 x.w + ||w||^2`. */
module VectorQuantizer {

  type Vector = seq<real>

  /** `w` has `dim` rows of `classes` entries each. */
  predicate Codebook(w: seq<Vector>, dim: nat, classes: nat) {
    |w| == dim && forall i :: 0 <= i < |w| ==> |w[i]| == classes
  }

  /** Column `j` of the codebook: the `j`-th codeword. */
  function Column(w: seq<Vector>, j: nat): (c: Vector)
    requires forall i :: 0 <= i < |w| ==> j < |w[i]|
    ensures |c| == |w|
    ensures forall i :: 0 <= i < |w| ==> c[i] == w[i][j]
  {
    seq(|w|, i requires 0 <= i < |w| => w[i][j])
  }

  // -----------------------------------------------------------------------
  // Distances

  function SumSquares(x: Vector): real {
    if |x| == 0 then 0.0 else x[0] * x[0] + SumSquares(x[1..])
  }

  function Dot(x: Vector, y: Vector): real
    requires |x| == |y|
  {
    if |x| == 0 then 0.0 else x[0] * y[0] + Dot(x[1..], y[1..])
  }

  /** The squared Euclidean distance, summed term by term: the reference
      the layer's expansion is measured against. */
  function SquaredDistance(x: Vector, y: Vector): (d: real)
    requires |x| == |y|
    ensures d >= 0.0
  {
    if |x| == 0 then 0.0
    else
      SquareNonNegative(x[0] - y[0]);
      (x[0] - y[0]) * (x[0] - y[0]) + SquaredDistance(x[1..], y[1..])
  }

  lemma SquareNonNegative(a: real)
    ensures a * a >= 0.0
  {
  }

  lemma SquareOfZero(a: real)
    requires a == 0.0
    ensures a * a == 0.0
  {
  }

  /** Every vector is at distance zero from itself. */
  lemma {:induction false} SquaredDistanceToSelf(x: Vector)
    ensures SquaredDistance(x, x) == 0.0
  {
    if |x| > 0 {
      SquaredDistanceToSelf(x[1..]);
      SquareOfZero(x[0] - x[0]);
    }
  }

  /** The distance the layer computes for one input and one codeword. */
  function ExpandedDistance(x: Vector, c: Vector): real
    requires |x| == |c|
  {
    SumSquares(x) - 2.0 * Dot(x, c) + SumSquares(c)
  }

  lemma SquareExpansion(a: real, b: real)
    ensures (a - b) * (a - b) == a * a - 2.0 * (a * b) + b * b
  {
  }

  /** The expansion is exactly the squared Euclidean distance. */
  lemma {:induction false} ExpandedIsSquaredDistance(x: Vector, c: Vector)
    requires |x| == |c|
    ensures ExpandedDistance(x, c) == SquaredDistance(x, c)
  {
    if |x| > 0 {
      ExpandedIsSquaredDistance(x[1..], c[1..]);
      SquareExpansion(x[0], c[0]);
    }
  }

  /** One row of the layer's `distances` matrix: the expanded distance from
      `x` to each of the `classes` codewords. */
  function Distances(x: Vector, w: seq<Vector>, classes: nat): (d: seq<real>)
    requires Codebook(w, |x|, classes)
    ensures |d| == classes
    ensures forall j :: 0 <= j < classes ==> d[j] == SquaredDistance(x, Column(w, j))
  {
    AllExpanded(x, w, classes);
    seq(classes, j requires 0 <= j < classes => ExpandedDistance(x, Column(w, j)))
  }

  lemma AllExpanded(x: Vector, w: seq<Vector>, classes: nat)
    requires Codebook(w, |x|, classes)
    ensures forall j :: 0 <= j < classes ==>
      ExpandedDistance(x, Column(w, j)) == SquaredDistance(x, Column(w, j))
  {
    forall j | 0 <= j < classes
      ensures ExpandedDistance(x, Column(w, j)) == SquaredDistance(x, Column(w, j))
    {
      ExpandedIsSquaredDistance(x, Column(w, j));
    }
  }

  // -----------------------------------------------------------------------
  // Selection

  /** `idx` is the first position holding the largest value of `v`: what an
      argmax over a row returns. */
  predicate FirstMaximum(v: seq<real>, idx: nat) {
    && idx < |v|
    && (forall j :: 0 <= j < |v| ==> v[j] <= v[idx])
    && (forall j :: 0 <= j < idx ==> v[j] < v[idx])
  }

  /** At most one index is the first maximum. */
  lemma FirstMaximumUnique(v: seq<real>, a: nat, b: nat)
    requires FirstMaximum(v, a) && FirstMaximum(v, b)
    ensures a == b
  {
    EarlierIsSmaller(v, a, b);
    EarlierIsSmaller(v, b, a);
  }

  lemma EarlierIsSmaller(v: seq<real>, a: nat, b: nat)
    requires FirstMaximum(v, a) && FirstMaximum(v, b)
    ensures v[a] == v[b]
    ensures a < b ==> v[a] < v[b]
  {
  }

  method Argmax(v: seq<real>) returns (idx: nat)
    requires |v| >= 1
    ensures FirstMaximum(v, idx)
  {
    idx := 0;
    var i := 1;
    while i < |v|
      invariant 1 <= i <= |v|
      invariant idx < i
      invariant forall j :: 0 <= j < i ==> v[j] <= v[idx]
      invariant forall j :: 0 <= j < idx ==> v[j] < v[idx]
    {
      if v[i] > v[idx] {
        idx := i;
      }
      i := i + 1;
    }
  }

  /** Codeword `idx` is nearest to `x`, and no earlier codeword is as near. */
  predicate Nearest(x: Vector, w: seq<Vector>, classes: nat, idx: nat)
    requires Codebook(w, |x|, classes)
  {
    && idx < classes
    && (forall j :: 0 <= j < classes ==>
          SquaredDistance(x, Column(w, idx)) <= SquaredDistance(x, Column(w, j)))
    && (forall j :: 0 <= j < idx ==>
          SquaredDistance(x, Column(w, j)) > SquaredDistance(x, Column(w, idx)))
  }

  /** The argmax of the negated distances picks the nearest codeword. */
  lemma NegatedArgmaxIsNearest(x: Vector, w: seq<Vector>, classes: nat, idx: nat)
    requires Codebook(w, |x|, classes)
    requires FirstMaximum(Negate(Distances(x, w, classes)), idx)
    ensures Nearest(x, w, classes, idx)
  {
    var d := Distances(x, w, classes);
    var neg := Negate(d);
    forall j | 0 <= j < classes
      ensures SquaredDistance(x, Column(w, idx)) <= SquaredDistance(x, Column(w, j))
    {
      assert neg[j] <= neg[idx];
    }
    forall j | 0 <= j < idx
      ensures SquaredDistance(x, Column(w, j)) > SquaredDistance(x, Column(w, idx))
    {
      assert neg[j] < neg[idx];
    }
  }

  function Negate(v: seq<real>): (r: seq<real>)
    ensures |r| == |v|
    ensures forall j :: 0 <= j < |v| ==> r[j] == -v[j]
  {
    seq(|v|, j requires 0 <= j < |v| => -v[j])
  }

  /** An input that is itself a codeword is quantised at distance zero. */
  lemma CodewordQuantizedExactly(x: Vector, w: seq<Vector>, classes: nat, j: nat, idx: nat)
    requires Codebook(w, |x|, classes)
    requires j < classes && x == Column(w, j)
    requires Nearest(x, w, classes, idx)
    ensures SquaredDistance(x, Column(w, idx)) == 0.0
    ensures idx <= j
  {
    SquaredDistanceToSelf(x);
  }

  /** The forward value of `stop_gradient(quantized - x) + x`. */
  function StraightThrough(x: Vector, q: Vector): (r: Vector)
    requires |x| == |q|
    ensures r == q
  {
    seq(|x|, i requires 0 <= i < |x| => (q[i] - x[i]) + x[i])
  }

  /** Quantises one input vector: its encoding index and the layer's output
      for it. */
  method QuantizeVector(x: Vector, w: seq<Vector>, classes: nat) returns (idx: nat, out: Vector)
    requires classes >= 1
    requires Codebook(w, |x|, classes)
    ensures Nearest(x, w, classes, idx)
    ensures out == Column(w, idx)
  {
    var d := Distances(x, w, classes);
    idx := Argmax(Negate(d));
    NegatedArgmaxIsNearest(x, w, classes, idx);
    var q := Column(w, idx);
    out := StraightThrough(x, q);
  }

  /** The layer's forward pass over a batch flattened to rows of
      `embedding_dim` entries. */
  method Call(xs: seq<Vector>, w: seq<Vector>, classes: nat) returns (idxs: seq<nat>, outs: seq<Vector>)
    requires classes >= 1
    requires forall b :: 0 <= b < |xs| ==> Codebook(w, |xs[b]|, classes)
    ensures |idxs| == |xs| && |outs| == |xs|
    ensures forall b :: 0 <= b < |xs| ==>
      Nearest(xs[b], w, classes, idxs[b]) && outs[b] == Column(w, idxs[b])
  {
    idxs := [];
    outs := [];
    var b := 0;
    while b < |xs|
      invariant 0 <= b <= |xs|
      invariant |idxs| == b && |outs| == b
      invariant forall c :: 0 <= c < b ==>
        Nearest(xs[c], w, classes, idxs[c]) && outs[c] == Column(w, idxs[c])
    {
      var idx, out := QuantizeVector(xs[b], w, classes);
      idxs := idxs + [idx];
      outs := outs + [out];
      b := b + 1;
    }
  }
}

=== FILE: wrappers.dfy ===
/** Failure-carrying datatypes shared by the model: an optional value and a
    result that is either a value or one of the source's runtime errors. */
module Wrappers {

  datatype Option<+T> = None | Some(value: T)

  /** The Python exceptions the modelled code can raise on reachable inputs. */
  datatype Error =
    | AssertionFailed      // an `assert` in a constructor or accessor fails
    | ZeroDivision         // Python `/` with a zero divisor
    | MathDomain           // `math.log` of a non-positive number
    | EmptyReduction       // `np.amax`/`np.amin` of a zero-size array
    | MissingAttribute     // an attribute read before it was ever assigned

  datatype Result<+R> = Success(value: R) | Failure(error: Error) {
    predicate IsFailure() {
      Failure?
    }

    function PropagateFailure<U>(): Result<U>
      requires Failure?
    {
      Failure(error)
    }

    function Extract(): R
      requires Success?
    {
      value
    }
  }
}
